=== FILE: README.md ===
# rs-axum-admin: session identity, tree building and CRUD guards

This project models the core logic of rs-axum-admin, an admin back end written with axum and sea-orm. It covers three parts:

- **Session identity.** `Identity` is an (id, session token) pair that displays itself and mints signed bearer credentials. The login service looks up the account, then the role link, then checks the password hash. Only a fully successful login writes, and it writes only the employee's session token, login time and update time. Logout clears the token and stamps `create_time`. The login controller validates the request first. It answers logout for the anonymous identity (id 0) without calling the service.
- **Pure transforms.**
  - `build_tree` groups (id, name, parent) tuples by parent and descends from parent 0.
  - `merge_employee_department` hash-joins employees onto department names.
  - `convert_string_to_i64` turns a query value into a 64-bit role id.
- **The guards of the CRUD services.**
  - Role name/code, employee login name/phone, position name and department name must be unique.
  - A role that still has employees cannot be deleted.
  - Role and position lookups and deletes cast the path key from `u64` to `i64`.
  - The list endpoints count the total on the first page only and order by key, descending.

The model is functional. Each table is a sequence of rows in storage order. A handler is a function from the tables, the request and its environment to an `Outcome`: an `Ok`/`Err` result together with the tables afterwards. Everything the code gets from outside is a parameter:

- the clock (`now`, Unix seconds);
- the MD5 digest;
- the nonce;
- the configured secret;
- the JSON web token library (an encode that may fail and a decode that may fail);
- the store's LIKE matching;
- the page window (offset and limit);
- the validator's message rendering.

A set `fails` names the statements that fail. A failing statement changes nothing and becomes a system error, unless the code ignores the error.

The model keeps the code's behaviour as written:

- `update` of a role or an employee counts every row, the one being updated included. Resubmitting a record with its own name is therefore refused.
- `disabled_flag` writes the deleted flag.
- Logout stamps `create_time`.
- `from_auth_token` keeps the whole bearer string as the session token.
- Login does not look at the disabled or deleted flags.
- Role `delete` looks for role-employee rows naming the unsigned path id, but deletes the role keyed by its signed cast. Above 2^63-1 the two differ, so the guard can pass while the deleted role still has an employee (`Roles.DeleteBypassesGuard`). `Roles.DeleteKeepsLinksValid` holds for ids up to 2^63-1.

Modules: `Api` (shared result types), `Decimal` (i64 text and `str::parse::<i64>`), `Schema` (rows and key helpers), `Paging` (the list shape), `Identities`, `Tree`, `LoginService`, `LoginController`, `Employees`, `Roles`, `Positions`, `Departments`.

## Model

| member | source | states |
|---|---|---|
| `Decimal.AsI64` | app/src/api/service/role.rs:228 | `roleid as i64`: a u64 up to 2^63-1 keeps its value, a larger one becomes that value minus 2^64 (negative), and the result always fits in i64 |
| `Decimal.ParseI64` | app/src/api/service/role.rs:387 | `parse::<i64>` succeeds only when the decimal reading of an optional sign and at least one digit fits in i64, and then agrees with that reading |
| `Decimal.IntToStringRoundTrip` | app/src/api/service/role.rs:387 | parsing the decimal display of any integer gives it back, and for an i64 so does the 64-bit parse |
| `Decimal.IntToStringInjective` | pkg/src/identity.rs:86 | two integers with the same decimal display are equal |
| `Identities.AsUsize` | pkg/src/identity.rs:56-57 | `as usize` gives a value below 2^64 that is congruent to the input modulo 2^64, and leaves an in-range value unchanged |
| `Identities.ClaimsAt` | pkg/src/identity.rs:54-59 | the claims carry the identity's id; iat is below 2^64 and congruent to now modulo 2^64, so a negative clock wraps; exp is iat + 86400 (24 hours) modulo 2^64; for an in-range clock, iat is now and exp is now + 86400 |
| `Identities.Identity.ToAuthToken` | pkg/src/identity.rs:51-67 | signing fails exactly when the library fails to encode the claims; a missing secret is excluded because it is unwrapped; with a faithful library the credential decodes under the same secret to claims carrying the identity's id and an expiry 24 hours after issue, issued at `now` when the clock is in range |
| `Identities.New` | pkg/src/identity.rs:25-30 | the identity reports the given id and matches exactly the given token |
| `Identities.Empty` | pkg/src/identity.rs:32-37 | the empty identity has id 0, matches only the empty token and displays as `<none>` |
| `Identities.FromAuthToken` | pkg/src/identity.rs:39-49 | with the secret present and a successful decode (both unwrapped), the id is the decoded claim id and the token field is the whole bearer string |
| `Identities.Identity.Display` | pkg/src/identity.rs:80-87 | the display is `<none>` exactly when the id is 0; otherwise it is `id:`, the decimal id, a bar, `token:` and the token |
| `Identities.DisplayInjective` | pkg/src/identity.rs:86 | two signed-in identities with the same display are the same identity |
| `Identities.AuthTokenIgnoresSessionToken` | pkg/src/identity.rs:59 | identities with the same id get the same credential at the same instant, whatever their session tokens |
| `Identities.AuthTokenRoundTrip` | pkg/src/identity.rs:44-47 | with a faithful signer, decoding a minted credential recovers the id; the recovered identity matches the original session token only if that token equals the bearer string |
| `Schema.FirstWith` | app/src/api/service/login.rs:40-42 | the row `.one()` returns: none exactly when no row has the key, otherwise the first row that has it |
| `Paging.SortDesc` | app/src/api/service/role.rs:116 | ORDER BY key DESC: the result is sorted by key, descending, and is a permutation of the input |
| `Paging.PageOf` | app/src/api/service/role.rs:115-120 | the page is sorted by key, descending, and holds min(limit, matches beyond the offset) rows, all matching; with distinct keys a match is on the page exactly when the number of matches with a larger key is at least `offset` and below `offset + limit` |
| `Paging.ListPage` | app/src/api/service/role.rs:97-124 | the total is the number of matches on the first page and 0 on later pages; a count failure matters only on the first page; the list holds min(limit, matches beyond the offset) rows sorted by key, descending; with distinct keys a row is listed exactly when it is stored, passes the filter and has between `offset` and `offset + limit - 1` matches with a larger key |
| `LoginService.Account` | app/src/api/service/login.rs:40-48 | a login name resolves to a stored employee with that name, or to none exactly when no employee has it |
| `LoginService.RoleLink` | app/src/api/service/login.rs:51-59 | an employee resolves to a stored role-employee row naming it, or to none exactly when no row names it |
| `LoginService.StampLogin` | app/src/api/service/login.rs:78-89 | each row of the employee matches the new session token and has login and update time now, every other column kept; rows of other employees are unchanged |
| `LoginService.StampLogout` | app/src/api/service/login.rs:106-114 | each row of the identity matches only the empty token and has create time now, every other column kept; rows of other employees are unchanged |
| `LoginService.Login` | app/src/api/service/login.rs:38-102 | the checks run in order (account, role link, password hash) with their messages; any error leaves the tables unchanged; success comes exactly when all checks, signing and the write succeed; the response carries the real name, the linked role and the credential of the new session; only that employee's token and times change; a signing failure or a failed session write is a system error that writes nothing; the secret is required only of requests that pass all three checks, so without one every failing check still answers as above |
| `LoginService.Logout` | app/src/api/service/login.rs:105-122 | a failed write is a system error that changes nothing; otherwise the identity's rows get an empty token and create_time now, and nothing else changes |
| `LoginService.SameNamesSameFirst` | app/src/api/service/login.rs:40-42 | tables with the same login names in the same places resolve a name to the same row |
| `LoginService.LoginIgnoresFlags` | app/src/api/service/login.rs:40-64 | the disabled and deleted flags never change whether a login succeeds or what it answers |
| `LoginService.LogoutIdempotent` | app/src/api/service/login.rs:106-114 | after two logouts the identity's token is empty, and a second logout at the same instant changes nothing |
| `LoginService.LoginKeepsAccount` | app/src/api/service/login.rs:78-89 | a successful login leaves the account's key, password hash and role link as they were |
| `LoginService.SecondLoginSupersedes` | app/src/api/service/login.rs:40-89 | after one successful login, a second with the same password hash succeeds whenever its statements and signing go through, and the account's rows then hold the second login's session token |
| `LoginController.Violations` | app/src/api/service/login.rs:21-24 | the request is valid exactly when both fields are non-empty, and each empty field contributes its own message |
| `LoginController.Login` | app/src/api/controller/login.rs:16-23 | an empty username or password gives a parameter error without touching the tables, with or without a secret; a valid request goes to the service unchanged |
| `LoginController.Logout` | app/src/api/controller/login.rs:25-30 | id 0 answers Ok and leaves the tables alone; any other id goes to the service |
| `LoginController.AnonymousLogoutIsNoOp` | app/src/api/controller/login.rs:26-28 | logging out the empty identity succeeds and writes nothing, whatever statements would fail |
| `Tree.ChildEntries` | pkg/src/tree.rs:27-28 | every listed entry has parent p and comes from the input; the list is empty exactly when no entry has parent p |
| `Tree.ChildEntriesInOrder` | pkg/src/tree.rs:21-32 | the child list of p is the order-preserving filter of the input on parent p: each entry with that parent, as often as the input holds it and in input order, and no other |
| `Tree.GroupMatchesChildEntries` | pkg/src/tree.rs:21-32 | the grouped list for p holds childless copies of exactly the entries with parent p, in input order |
| `Tree.Forest` | pkg/src/tree.rs:36-43 | one output node per grouped child, in order, a copy of the child with its own subtree attached |
| `Tree.DescendsWithin` | pkg/src/tree.rs:35-44 | a descent that ends on the entries also ends on the grouped map |
| `Tree.SubtreeDescribes` | pkg/src/tree.rs:35-44 | the subtree of p is exactly what the entries describe below p, recursively |
| `Tree.BuildTree` | pkg/src/tree.rs:11-55 | empty input gives None; None exactly when no entry has parent 0; otherwise a non-empty forest whose top level is the entries with parent 0, in input order, each with its children described recursively, and whose every node copies the id and name of an input entry that has a parent |
| `Tree.DescribedNodesComeFromEntries` | pkg/src/tree.rs:22-26 | every node of a described forest, at any depth, copies the id and name of an entry that has a parent |
| `Tree.WithParent` | pkg/src/tree.rs:27-31 | an entry is kept exactly when it is in the input and has a parent |
| `Tree.AllParentedKept` | pkg/src/tree.rs:27-31 | when every entry has a parent, the parented entries are the whole input, unchanged |
| `Tree.WithParentInOrder` | pkg/src/tree.rs:27-31 | the entries with a parent are the order-preserving filter of the input on having one: input order and multiplicity are kept |
| `Tree.ChildEntriesIgnoreUnparented` | pkg/src/tree.rs:27-31 | dropping the entries without a parent changes no child list |
| `Tree.DescribesUnique` | pkg/src/tree.rs:36-43 | inputs with the same child lists describe one forest only |
| `Tree.BuildTreeFollowsChildren` | pkg/src/tree.rs:11-55 | two terminating inputs with the same child list for every parent give the same result |
| `Tree.UnparentedIgnored` | pkg/src/tree.rs:27-31 | entries without a parent never reach the output: removing them gives the same result |
| `Tree.SelfLoopNeverEnds` | pkg/src/tree.rs:35-44 | an entry that is its own parent makes the descent below it endless |
| `Tree.RootSelfLoopExcluded` | pkg/src/tree.rs:35-47 | input with an entry (0, _, Some(0)) makes `build_tree` recurse forever, so the precondition excludes it |
| `Employees.Create` | app/src/api/service/employee.rs:44-95 | a taken login name is refused first, then a taken phone, each with its message and no insert; a failure of either count or of the insert is a system error; success comes exactly when both are free and the statements succeed; exactly one row is appended, with the request's columns, password hash md5(login name) and create time now |
| `Employees.CreateKeepsUnique` | app/src/api/service/employee.rs:46-70 | a successful create with a fresh key keeps keys, login names and phones pairwise distinct |
| `Employees.Update` | app/src/api/service/employee.rs:247-284 | refused when any employee, the updated one included, has the login name or the phone; a failure of the count or of the update is a system error; on success only the row with the request's key changes, taking the request's columns and update time now |
| `Employees.UpdateRefusesOwnLoginName` | app/src/api/service/employee.rs:249-260 | an update that keeps the employee's own login name is always refused |
| `Employees.UpdateKeepsUnique` | app/src/api/service/employee.rs:249-283 | a successful update keeps keys, login names and phones pairwise distinct |
| `Employees.ResetPassword` | app/src/api/service/employee.rs:298-306 | always answers Ok; unless the write fails, the employee's rows get the hash md5("123456") and nothing else changes |
| `Employees.ResetPasswordThenLogin` | app/src/api/service/employee.rs:298-306 | after a reset, the login name resolves to the same employee with hash md5("123456"), and a login with "123456" succeeds whenever its statements and signing go through |
| `Employees.DisabledFlag` | app/src/api/service/employee.rs:287-295 | always answers Ok; unless the write fails, the employee's deleted flag takes the value; no disabled flag ever changes, nor anything of another employee |
| `Employees.DisabledFlagKeepsLogin` | app/src/api/service/employee.rs:287-295 | writing the flag never changes what a login answers |
| `Employees.DisabledFilter` | app/src/api/service/employee.rs:122-128 | no filter when the key is absent; filter value 1 exactly when the query value is "1"; 0 for any other value |
| `Employees.List` | app/src/api/service/employee.rs:120-196 | every listed employee is stored and passes the filters; the disabled filter holds for each; at most `limit` rows, ordered by key, descending; with distinct keys an employee is listed exactly when it passes the filters and its rank among the matches is in [offset, offset + limit); the total counts the matches on the first page and is 0 on later pages; the call succeeds exactly when the page query succeeds and, on the first page, the count succeeds, and any failure is a system error; exactly min(limit, matches beyond the offset) rows are listed |
| `Employees.DepartmentMapHoldsLastName` | app/src/api/service/employee.rs:404-407 | the collected map holds an id exactly when the list has it, mapped to the name of its last entry |
| `Employees.Joined` | app/src/api/service/employee.rs:401 | the join is no longer than the employee list |
| `Employees.MergeEmployeeDepartment` | app/src/api/service/employee.rs:398-423 | the hash join equals the reference join, is no longer than the employee list, and gives each employee the name of the last department entry for its id |
| `Employees.JoinedNamesAreLast` | app/src/api/service/employee.rs:411-416 | each joined row's name is the last one listed for its department |
| `Employees.JoinedKeepsListedEmployees` | app/src/api/service/employee.rs:410-420 | an employee appears, with key, name and department copied, exactly when its department is listed |
| `Roles.ConvertStringToI64` | app/src/api/service/role.rs:385-390 | an absent value stays absent; a present one parses as i64 or reads as 0 |
| `Roles.ConvertRoundTrip` | app/src/api/service/role.rs:385-390 | converting the display of any i64 gives it back |
| `Roles.ConvertDefaultsToZero` | app/src/api/service/role.rs:387 | the empty string, a lone sign and trailing junk all read as 0 |
| `Roles.ConvertOverflowIsZero` | app/src/api/service/role.rs:387 | a well-formed number outside i64 reads as 0, not as a wrapped value |
| `Roles.RoleEmpListKey` | app/src/api/service/role.rs:287-291 | the role-employee key looked up: the default 1 applies only when the "roleid" key is absent; an unparsable value gives 0 |
| `Roles.Create` | app/src/api/service/role.rs:36-66 | a failed duplicate count is a system error; otherwise refused when any role has the name or the code; a failed insert is a system error; success comes exactly when both are free and the statements succeed, and then exactly one role is appended |
| `Roles.CreateKeepsUnique` | app/src/api/service/role.rs:37-63 | a successful create with a fresh key keeps keys, names and codes pairwise distinct |
| `Roles.Update` | app/src/api/service/role.rs:182-211 | a failed count is a system error; refused when any role, the updated one included, has the name or the code; a failed update is a system error; otherwise the written columns are the request's name, code and remark with update time now |
| `Roles.UpdateRefusesItself` | app/src/api/service/role.rs:184-195 | resubmitting a role with its own name or code is always refused |
| `Roles.Info` | app/src/api/service/role.rs:146-166 | the role whose key is the cast id, or not-found exactly when there is none |
| `Roles.InfoAfterDelete` | app/src/api/service/role.rs:146-166 | after a successful delete, the role's info is not-found |
| `Roles.WithoutRole` | app/src/api/service/role.rs:228 | exactly the roles whose key differs from the given one remain, each as often as stored |
| `Roles.WithoutRoleInOrder` | app/src/api/service/role.rs:228 | the survivors keep their storage order: the delete equals the order-preserving filter on the key |
| `Roles.Delete` | app/src/api/service/role.rs:214-233 | a failed link count is a system error; refused while a role-employee row names the u64 id; a failed delete is a system error; otherwise the table becomes the order-preserving filter of its roles on a key other than the cast id, and nothing else changes; errors change nothing |
| `Roles.DeleteKeepsUnique` | app/src/api/service/role.rs:228 | a delete keeps role keys, names and codes unique |
| `Roles.DeleteKeepsLinksValid` | app/src/api/service/role.rs:216-231 | for an id within i64, a delete never leaves a role-employee row naming a missing role |
| `Roles.DeleteBypassesGuard` | app/src/api/service/role.rs:216-228 | with id 2^64-1 the guard looks for links to 2^64-1 but the delete removes role -1: a role -1 with an employee is deleted and its link is left dangling |
| `Roles.MenuEntriesAllParented` | app/src/api/service/role.rs:424-425 | every tuple has a parent, so none falls into the no-parent branch of `build_tree` |
| `Roles.MenuList` | app/src/api/service/role.rs:402-427 | a failed query is a system error; otherwise None exactly when no menu hangs under 0, and else the forest described by the tuples (menu id, name, Some(parent id)), one per menu in order |
| `Roles.RoleMenus` | app/src/api/service/role.rs:437-458 | a failed query is a system error; otherwise exactly the role-menu rows of the role, each as often as stored |
| `Roles.RoleMenusAfterInsert` | app/src/api/service/role.rs:437-448 | storing one more row appends it to its own role's answer and leaves every other role's answer unchanged |
| `Roles.List` | app/src/api/service/role.rs:88-143 | first-page total of the matches, 0 on later pages; at most `limit` listed rows, stored, matching and ordered by key, descending; with distinct keys a role is listed exactly when it matches and its rank among the matches is in [offset, offset + limit); the call succeeds exactly when the page query succeeds and, on the first page, the count succeeds, and any failure is a system error; exactly min(limit, matches beyond the offset) rows are listed |
| `Positions.Create` | app/src/api/service/position.rs:28-61 | a failed count is a system error; a taken name is refused with no insert; a failed insert is a system error; success comes exactly when the name is free and the statements succeed, and then exactly one row is appended |
| `Positions.CreateKeepsUnique` | app/src/api/service/position.rs:30-58 | a successful create with a fresh key keeps keys and names pairwise distinct |
| `Positions.Update` | app/src/api/service/position.rs:180-197 | no duplicate check: the write fails only when the store fails, and carries the request's columns with update time now |
| `Positions.UpdateIgnoresKey` | app/src/api/service/position.rs:180-191 | the request's `postid` is never sent: requests that differ only in key and echoed create time write the same columns |
| `Positions.WithoutPosition` | app/src/api/service/position.rs:201 | exactly the positions whose key differs from the given one remain, each as often as stored |
| `Positions.WithoutPositionInOrder` | app/src/api/service/position.rs:201 | the survivors keep their storage order: the delete equals the order-preserving filter on the key |
| `Positions.Delete` | app/src/api/service/position.rs:200-206 | unconditional: unless the store fails, the table becomes the order-preserving filter of its positions on a key other than the cast id, so the positions keyed by the cast id go and no other; a failure is a system error that changes nothing |
| `Positions.DeleteKeepsUnique` | app/src/api/service/position.rs:201 | a delete keeps position keys and names unique |
| `Positions.DeleteWrapsLargeKey` | app/src/api/service/position.rs:201 | the path id 2^64-1 is cast to -1: it removes exactly the positions keyed -1 |
| `Positions.Info` | app/src/api/service/position.rs:143-164 | the position whose key is the cast id, or not-found exactly when there is none |
| `Positions.InfoAfterDelete` | app/src/api/service/position.rs:200-206 | after a successful delete, the position's info is not-found |
| `Positions.List` | app/src/api/service/position.rs:84-140 | first-page total of the matches, 0 on later pages; at most `limit` listed rows, stored, matching and ordered by key, descending; with distinct keys a position is listed exactly when it matches and its rank among the matches is in [offset, offset + limit); the call succeeds exactly when the page query succeeds and, on the first page, the count succeeds, and any failure is a system error; exactly min(limit, matches beyond the offset) rows are listed |
| `Departments.Create` | app/src/api/service/department.rs:31-62 | a count failure is a system error; a taken name is refused; an insert failure is a system error; each leaves the table unchanged; otherwise exactly one row is appended |
| `Departments.CreateAll` | app/src/api/service/department.rs:41-56 | running creates one after another keeps the earlier rows and adds at most one row per request |
| `Departments.CreateAllKeepsNamesDistinct` | app/src/api/service/department.rs:32-59 | department names stay pairwise distinct under any sequence of creates and failures |

## Left out

- The JSON web token library, the MD5 digest and `util::nonce` are uninterpreted parameters. Only the claim fields and the token text are stated.
- The request gate and the auth middleware are not part of this model. How a bearer string reaches `from_auth_token`, and how a decode failure is reported there, is not modelled.
- ORM and SQL semantics are abstract: LIKE matching is a parameter; `util::query_page` is not part of this model; `.one()` is the first row in storage order; `count` is "some row matches".
- For role and position `update`, the row an update without a key hits is left to the store. The model returns the columns written.
- `xtime::now` and `Utc::now` are both the single parameter `now`. Time formatting (`create_time_str`) is left out.
- A clock outside chrono's range, which would panic, is left out.
- Races between count and insert under concurrent requests are left out; every handler runs alone.
- The router table, axum extractors, serde, tracing and logging are left out.
- The role, employee, position and department controllers only validate and delegate, and are left out. The login controller is modelled.
- `pkg/src/lib.rs` holds module declarations only and is left out.
- Columns an insert does not set are taken as zero or empty, and the key the table assigns is the parameter `id`.
- `Employees.Update`: an update whose key matches no row is folded into the failure of the update statement.
- `Roles.RoleEmpListKey`: only the key `role_emp_list` looks up is modelled. The employee page it then reads follows the same list shape as `Employees.List` and is left out.
- The validator's message text is the parameter `render`.
- `LoginService.Login`: with no secret configured, a request that passes every check panics at the unwrap in `to_auth_token`. The model requires a secret for exactly those requests, and `LoginController.Login` inherits this for valid requests.
- `Paging.PageOf`: which rows form a page is stated only for distinct keys, as primary keys are. With repeated keys the store's order among equal keys is not modelled. `Paging.ListPage`, `Employees.List`, `Roles.List` and `Positions.List` inherit this.
- `Tree.UnparentedIgnored` requires both the input and the filtered input to terminate.
- Employee `info` and `change_department`, `employee_select_list` beyond the join, and role `select_list` read or write without a guard and are left out.

=== FILE: api.dfy ===
/**
 The result vocabulary shared by every service: the service layer's `ApiErr`
 kinds, a Result over them, and an Outcome pairing a result with the tables
 after the call.
 */
module Api {

  datatype Option<+T> = None | Some(value: T) {

    /** The encapsulated value, or `default` when None (Rust's `unwrap_or`). */
    function GetOr(default: T): T {
      match this
      case Some(v) => v
      case None => default
    }
  }

  /** The error kinds a handler returns; each may carry a message. */
  datatype ApiErr =
    | ErrParams(msg: Option<string>)
    | ErrAuth(msg: Option<string>)
    | ErrPerm(msg: Option<string>)
    | ErrNotFound(msg: Option<string>)
    | ErrSystem(msg: Option<string>)

  datatype Result<+T> = Ok(value: T) | Err(err: ApiErr)

  /** A handler's result together with the state of the tables it touched afterwards. */
  datatype Outcome<+T, +S> = Outcome(result: Result<T>, state: S)

  /** The unit value returned by handlers that answer `ApiOK(None)`. */
  datatype Unit = Unit

  /** Every persistence failure surfaces as a message-less system error. */
  const SystemError: ApiErr := ErrSystem(None)
}

=== FILE: decimal.dfy ===
/**
 Decimal text for 64-bit integers: the rendering `{}` gives an `i64` and the
 parse `str::parse::<i64>` performs. Login builds its session seed with the
 former, `Identity`'s display uses it, and the role service parses query
 values with the latter.
 */
module Decimal {
  import opened Api

  const MinI64: int := -0x8000_0000_0000_0000
  const MaxI64: int := 0x7fff_ffff_ffff_ffff

  /** An unsigned 64-bit value (`u64`), as a path parameter arrives. */
  type U64 = x: int | 0 <= x < 0x1_0000_0000_0000_0000

  /** `x as i64`: values above the signed maximum wrap to negatives. */
  function AsI64(x: U64): (r: int)
    ensures IsI64(r)
    ensures x <= MaxI64 ==> r == x
    ensures x > MaxI64 ==> r < 0 && r == x - 0x1_0000_0000_0000_0000
  {
    if x <= MaxI64 then x else x - 0x1_0000_0000_0000_0000
  }

  predicate IsI64(n: int) {
    MinI64 <= n <= MaxI64
  }

  predicate IsDigit(c: char) {
    '0' <= c <= '9'
  }

  predicate AllDigits(s: string) {
    forall i :: 0 <= i < |s| ==> IsDigit(s[i])
  }

  function DigitChar(d: int): (c: char)
    requires 0 <= d < 10
    ensures IsDigit(c)
  {
    ('0' as int + d) as char
  }

  function DigitValue(c: char): (d: int)
    requires IsDigit(c)
    ensures 0 <= d < 10
  {
    c as int - '0' as int
  }

  /** The digits of `n`, most significant first, without leading zeros. */
  function NatDigits(n: nat): (s: string)
    ensures |s| > 0 && AllDigits(s)
    ensures s[0] == '0' ==> n == 0
    decreases n
  {
    if n < 10 then [DigitChar(n)] else NatDigits(n / 10) + [DigitChar(n % 10)]
  }

  /** The value of a string of decimal digits (leading zeros allowed). */
  function ValueOf(s: string): nat
    requires AllDigits(s)
    decreases |s|
  {
    if |s| == 0 then 0 else ValueOf(s[..|s| - 1]) * 10 + DigitValue(s[|s| - 1])
  }

  /** How an integer is displayed: a minus sign for negatives, then its digits. */
  function IntToString(n: int): (s: string)
    ensures |s| > 0 && s[0] != '+' && s[0] != '|'
    ensures s[0] == '-' <==> n < 0
  {
    if n < 0 then "-" + NatDigits(-n) else NatDigits(n)
  }

  /**
   An optional sign followed by at least one digit, read without a width
   bound; None when `s` has any other shape.
   */
  function ParseInt(s: string): (r: Option<int>)
    ensures r.Some? ==> |s| > 0
  {
    if |s| == 0 then None
    else
      var body := if s[0] == '-' || s[0] == '+' then s[1..] else s;
      if |body| == 0 || !AllDigits(body) then None
      else
        var v: int := ValueOf(body);
        if s[0] == '-' then Some(-v) else Some(v)
  }

  /** `str::parse::<i64>`: the shape ParseInt accepts, and a value that fits in 64 bits. */
  function ParseI64(s: string): (r: Option<int>)
    ensures r.Some? ==> IsI64(r.value) && ParseInt(s) == r
    ensures ParseInt(s).Some? && IsI64(ParseInt(s).value) ==> r == ParseInt(s)
  {
    match ParseInt(s)
    case Some(v) => if IsI64(v) then Some(v) else None
    case None => None
  }

  lemma {:induction false} ValueOfNatDigits(n: nat)
    ensures ValueOf(NatDigits(n)) == n
    decreases n
  {
    if n >= 10 {
      var s := NatDigits(n);
      assert s[..|s| - 1] == NatDigits(n / 10);
      ValueOfNatDigits(n / 10);
    }
  }

  /** Displaying an integer and reading it back yields the same integer. */
  lemma IntToStringRoundTrip(n: int)
    ensures ParseInt(IntToString(n)) == Some(n)
    ensures IsI64(n) ==> ParseI64(IntToString(n)) == Some(n)
  {
    var s := IntToString(n);
    if n < 0 {
      assert s[1..] == NatDigits(-n);
      ValueOfNatDigits(-n);
    } else {
      ValueOfNatDigits(n);
    }
  }

  /** Distinct integers display differently. */
  lemma IntToStringInjective(a: int, b: int)
    requires IntToString(a) == IntToString(b)
    ensures a == b
  {
    IntToStringRoundTrip(a);
    IntToStringRoundTrip(b);
  }

  /** The display of an integer never contains the separator `|`. */
  lemma IntToStringHasNoBar(n: int)
    ensures forall i :: 0 <= i < |IntToString(n)| ==> IntToString(n)[i] != '|'
  {
    var s := IntToString(n);
    if n < 0 {
      assert forall i :: 1 <= i < |s| ==> s[i] == NatDigits(-n)[i - 1];
    }
  }
}

=== FILE: department.dfy ===
/**
 The department service of app/src/api/service/department.rs: `create`
 refuses a name already in use and otherwise inserts one department.
 */
module Departments {
  import opened Api
  import opened Schema

  datatype ReqCreate = ReqCreate(deptname: string, sort: int, managerid: int, parentid: int)

  /** The statements `create` issues; a failing one yields a system error. */
  datatype Call = CountName | InsertDepartment

  const NameTaken: string := "部门名称重复"

  /** The row `create` inserts. */
  function NewDepartment(req: ReqCreate, id: int, now: int): (d: Department)
    ensures d.department_id == id && d.department_name == req.deptname && d.sort == req.sort
    ensures d.manager_id == req.managerid && d.parent_id == req.parentid && d.create_time == now
  {
    Department(id, req.deptname, req.sort, req.managerid, req.parentid, now)
  }

  /** `create`: refused when any department has the name; otherwise exactly one department is added. */
  function Create(rows: seq<Department>, req: ReqCreate, id: int, now: int, fails: set<Call>)
    : (out: Outcome<Unit, seq<Department>>)
    ensures out.result.Err? ==> out.state == rows
    ensures CountName in fails ==> out.result == Err(SystemError)
    ensures CountName !in fails && AnyHas(rows, DepartmentNameOf, req.deptname) ==>
              out.result == Err(ErrPerm(Some(NameTaken)))
    ensures CountName !in fails && !AnyHas(rows, DepartmentNameOf, req.deptname) && InsertDepartment in fails ==>
              out.result == Err(SystemError)
    ensures out.result.Ok? <==>
              CountName !in fails && InsertDepartment !in fails && !AnyHas(rows, DepartmentNameOf, req.deptname)
    ensures out.result.Ok? ==> out.state == rows + [NewDepartment(req, id, now)]
  {
    if CountName in fails then Outcome(Err(SystemError), rows)
    else if AnyHas(rows, DepartmentNameOf, req.deptname) then Outcome(Err(ErrPerm(Some(NameTaken))), rows)
    else if InsertDepartment in fails then Outcome(Err(SystemError), rows)
    else Outcome(Ok(Unit), rows + [NewDepartment(req, id, now)])
  }

  /** One `create` request together with the key, clock and store failures it meets. */
  datatype Step = Step(req: ReqCreate, id: int, now: int, fails: set<Call>)

  /** The table after running the requests one after another. */
  function CreateAll(rows: seq<Department>, steps: seq<Step>): (r: seq<Department>)
    ensures |rows| <= |r| <= |rows| + |steps|
    ensures r[..|rows|] == rows
    decreases |steps|
  {
    if |steps| == 0 then rows
    else
      var s := steps[0];
      CreateAll(Create(rows, s.req, s.id, s.now, s.fails).state, steps[1..])
  }

  /** However the requests and failures interleave, department names stay pairwise distinct. */
  lemma {:induction false} CreateAllKeepsNamesDistinct(rows: seq<Department>, steps: seq<Step>)
    requires DistinctBy(rows, DepartmentNameOf)
    ensures DistinctBy(CreateAll(rows, steps), DepartmentNameOf)
    decreases |steps|
  {
    if |steps| > 0 {
      var s := steps[0];
      var out := Create(rows, s.req, s.id, s.now, s.fails);
      if out.result.Ok? {
        AppendFreshKey(rows, DepartmentNameOf, NewDepartment(s.req, s.id, s.now));
      }
      CreateAllKeepsNamesDistinct(out.state, steps[1..]);
    }
  }
}

=== FILE: employee.dfy ===
/**
 The employee service of app/src/api/service/employee.rs over the employee
 table: the uniqueness checks of create and update, the initial and reset
 password hashes, the flag write, the list filter on the disabled flag, and
 the hash join that feeds the employee drop-down.
 */
module Employees {
  import opened Api
  import opened Schema
  import Paging
  import Identities
  import LoginService

  datatype ReqCreate = ReqCreate(
    realname: string, phone: string, department_id: int, login_name: string,
    email: string, gender: Byte, disabled_flag: Byte, position_id: int)

  datatype UpdateInfo = UpdateInfo(
    employee_id: int, realname: string, phone: string, department_id: int, login_name: string,
    email: string, gender: Byte, disabled_flag: Byte, position_id: int)

  /** The statements the handlers issue; a failing one yields a system error unless ignored. */
  datatype Call = CountLoginName | CountPhone | InsertEmployee | CountDuplicates | UpdateEmployee
                | WriteFlag | WritePassword

  const LoginNameTaken: string := "登录名已重复"
  const PhoneTaken: string := "手机号码已重复"
  const LoginNameOrPhoneTaken: string := "登录名称或手机号码重复"

  /** The password `reset_password` restores. */
  const DefaultPassword: string := "123456"

  /** The inserted row; `id` is the key the table assigns, unset columns are zero or empty. */
  function NewEmployee(id: int, req: ReqCreate, pwd: string, now: int): Employee {
    Employee(employee_id := id, login_name := req.login_name, realname := req.realname,
             phone := req.phone, email := req.email, gender := req.gender,
             disabled_flag := req.disabled_flag, deleted_flag := 0,
             position_id := req.position_id, department_id := req.department_id,
             login_pwd := pwd, login_token := "", login_at := 0, create_time := now, update_time := 0)
  }

  /**
   `create`: a taken login name is refused first, then a taken phone; the
   new row's password hash is the digest of its login name.
   */
  function Create(rows: seq<Employee>, req: ReqCreate, id: int, now: int, md5: string -> string,
                  fails: set<Call>): (out: Outcome<Unit, seq<Employee>>)
    ensures out.result.Err? ==> out.state == rows
    ensures CountLoginName in fails ==> out.result == Err(SystemError)
    ensures CountLoginName !in fails && AnyHas(rows, LoginNameOf, req.login_name) ==>
              out.result == Err(ErrPerm(Some(LoginNameTaken)))
    ensures CountLoginName !in fails && CountPhone !in fails &&
            !AnyHas(rows, LoginNameOf, req.login_name) && AnyHas(rows, PhoneOf, req.phone) ==>
              out.result == Err(ErrPerm(Some(PhoneTaken)))
    ensures CountLoginName !in fails && !AnyHas(rows, LoginNameOf, req.login_name) && CountPhone in fails ==>
              out.result == Err(SystemError)
    ensures CountLoginName !in fails && CountPhone !in fails && InsertEmployee in fails &&
            !AnyHas(rows, LoginNameOf, req.login_name) && !AnyHas(rows, PhoneOf, req.phone) ==>
              out.result == Err(SystemError)
    ensures out.result.Ok? <==>
              CountLoginName !in fails && CountPhone !in fails && InsertEmployee !in fails &&
              !AnyHas(rows, LoginNameOf, req.login_name) && !AnyHas(rows, PhoneOf, req.phone)
    ensures out.result.Ok? ==>
              |out.state| == |rows| + 1 && out.state[..|rows|] == rows &&
              var e := out.state[|rows|];
              e.employee_id == id && e.login_name == req.login_name && e.phone == req.phone &&
              e.realname == req.realname && e.email == req.email && e.gender == req.gender &&
              e.disabled_flag == req.disabled_flag && e.position_id == req.position_id &&
              e.department_id == req.department_id &&
              e.login_pwd == md5(req.login_name) && e.create_time == now
  {
    if CountLoginName in fails then Outcome(Err(SystemError), rows)
    else if AnyHas(rows, LoginNameOf, req.login_name) then Outcome(Err(ErrPerm(Some(LoginNameTaken))), rows)
    else if CountPhone in fails then Outcome(Err(SystemError), rows)
    else if AnyHas(rows, PhoneOf, req.phone) then Outcome(Err(ErrPerm(Some(PhoneTaken))), rows)
    else if InsertEmployee in fails then Outcome(Err(SystemError), rows)
    else
      var rows' := rows + [NewEmployee(id, req, md5(req.login_name), now)];
      assert rows'[..|rows|] == rows;
      Outcome(Ok(Unit), rows')
  }

  /** No two employees share a key, a login name or a phone number. */
  predicate Unique(rows: seq<Employee>) {
    DistinctBy(rows, EmployeeIdOf) && DistinctBy(rows, LoginNameOf) && DistinctBy(rows, PhoneOf)
  }

  /** A successful create with a fresh key keeps keys, login names and phones unique. */
  lemma CreateKeepsUnique(rows: seq<Employee>, req: ReqCreate, id: int, now: int, md5: string -> string,
                          fails: set<Call>)
    requires Unique(rows) && !AnyHas(rows, EmployeeIdOf, id)
    requires Create(rows, req, id, now, md5, fails).result.Ok?
    ensures Unique(Create(rows, req, id, now, md5, fails).state)
  {
    var row := NewEmployee(id, req, md5(req.login_name), now);
    assert Create(rows, req, id, now, md5, fails).state == rows + [row];
    AppendFreshKey(rows, EmployeeIdOf, row);
    AppendFreshKey(rows, LoginNameOf, row);
    AppendFreshKey(rows, PhoneOf, row);
  }

  /** The columns `update` writes onto the row with the request's key. */
  function Apply(e: Employee, req: UpdateInfo, now: int): Employee {
    e.(login_name := req.login_name, realname := req.realname, phone := req.phone, email := req.email,
       gender := req.gender, disabled_flag := req.disabled_flag, position_id := req.position_id,
       department_id := req.department_id, update_time := now)
  }

  /**
   `update`: refused when any employee, the one being updated included, has
   the requested login name or phone; otherwise the row with the request's
   key takes the new columns.
   */
  function Update(rows: seq<Employee>, req: UpdateInfo, now: int, fails: set<Call>)
    : (out: Outcome<Unit, seq<Employee>>)
    ensures out.result.Err? ==> out.state == rows
    ensures CountDuplicates in fails ==> out.result == Err(SystemError)
    ensures CountDuplicates !in fails &&
            (AnyHas(rows, LoginNameOf, req.login_name) || AnyHas(rows, PhoneOf, req.phone)) ==>
              out.result == Err(ErrPerm(Some(LoginNameOrPhoneTaken)))
    ensures CountDuplicates !in fails && UpdateEmployee in fails &&
            !AnyHas(rows, LoginNameOf, req.login_name) && !AnyHas(rows, PhoneOf, req.phone) ==>
              out.result == Err(SystemError)
    ensures out.result.Ok? <==>
              CountDuplicates !in fails && UpdateEmployee !in fails &&
              !AnyHas(rows, LoginNameOf, req.login_name) && !AnyHas(rows, PhoneOf, req.phone)
    ensures out.result.Ok? ==>
              |out.state| == |rows| &&
              forall k :: 0 <= k < |rows| ==>
                out.state[k] == if rows[k].employee_id == req.employee_id then Apply(rows[k], req, now) else rows[k]
  {
    if CountDuplicates in fails then Outcome(Err(SystemError), rows)
    else if AnyHas(rows, LoginNameOf, req.login_name) || AnyHas(rows, PhoneOf, req.phone) then
      Outcome(Err(ErrPerm(Some(LoginNameOrPhoneTaken))), rows)
    else if UpdateEmployee in fails then Outcome(Err(SystemError), rows)
    else
      Outcome(Ok(Unit), seq(|rows|, k requires 0 <= k < |rows| =>
        if rows[k].employee_id == req.employee_id then Apply(rows[k], req, now) else rows[k]))
  }

  /** An update that keeps the employee's own login name is always refused. */
  lemma UpdateRefusesOwnLoginName(rows: seq<Employee>, req: UpdateInfo, now: int, fails: set<Call>, k: nat)
    requires k < |rows| && rows[k].employee_id == req.employee_id && rows[k].login_name == req.login_name
    requires CountDuplicates !in fails
    ensures Update(rows, req, now, fails).result == Err(ErrPerm(Some(LoginNameOrPhoneTaken)))
  {
    assert LoginNameOf(rows[k]) == req.login_name;
  }

  /** With unique keys, a successful update keeps login names and phones unique. */
  lemma UpdateKeepsUnique(rows: seq<Employee>, req: UpdateInfo, now: int, fails: set<Call>)
    requires Unique(rows)
    requires Update(rows, req, now, fails).result.Ok?
    ensures Unique(Update(rows, req, now, fails).state)
  {
    var rows' := Update(rows, req, now, fails).state;
    forall i, j | 0 <= i < j < |rows'|
      ensures rows'[i].employee_id != rows'[j].employee_id
      ensures rows'[i].login_name != rows'[j].login_name
      ensures rows'[i].phone != rows'[j].phone
    {
      assert EmployeeIdOf(rows[i]) != EmployeeIdOf(rows[j]);
      assert LoginNameOf(rows[i]) != LoginNameOf(rows[j]);
      assert PhoneOf(rows[i]) != PhoneOf(rows[j]);
      if rows[i].employee_id == req.employee_id {
        assert LoginNameOf(rows[j]) != req.login_name && PhoneOf(rows[j]) != req.phone;
      } else if rows[j].employee_id == req.employee_id {
        assert LoginNameOf(rows[i]) != req.login_name && PhoneOf(rows[i]) != req.phone;
      }
    }
  }

  /** `reset_password`: always answers Ok; the write, unless it fails, sets the digest of "123456". */
  function ResetPassword(rows: seq<Employee>, id: int, md5: string -> string, fails: set<Call>)
    : (out: Outcome<Unit, seq<Employee>>)
    ensures out.result == Ok(Unit)
    ensures WritePassword in fails ==> out.state == rows
    ensures WritePassword !in fails ==>
              |out.state| == |rows| &&
              forall k :: 0 <= k < |rows| ==>
                if rows[k].employee_id == id
                then out.state[k].login_pwd == md5(DefaultPassword) &&
                     out.state[k].(login_pwd := rows[k].login_pwd) == rows[k]
                else out.state[k] == rows[k]
  {
    if WritePassword in fails then Outcome(Ok(Unit), rows)
    else Outcome(Ok(Unit), seq(|rows|, k requires 0 <= k < |rows| =>
      if rows[k].employee_id == id then rows[k].(login_pwd := md5(DefaultPassword)) else rows[k]))
  }

  /**
   `disabled_flag`: always answers Ok; the write, unless it fails, stores the
   value in the deleted flag, so the disabled flag never changes.
   */
  function DisabledFlag(rows: seq<Employee>, id: int, flag: Byte, fails: set<Call>)
    : (out: Outcome<Unit, seq<Employee>>)
    ensures out.result == Ok(Unit)
    ensures |out.state| == |rows|
    ensures forall k :: 0 <= k < |rows| ==> out.state[k].disabled_flag == rows[k].disabled_flag
    ensures WriteFlag !in fails ==>
              forall k :: 0 <= k < |rows| && rows[k].employee_id == id ==> out.state[k].deleted_flag == flag
    ensures forall k :: 0 <= k < |rows| ==>
              out.state[k].(deleted_flag := rows[k].deleted_flag) == rows[k] &&
              (rows[k].employee_id != id || WriteFlag in fails ==> out.state[k] == rows[k])
  {
    if WriteFlag in fails then Outcome(Ok(Unit), rows)
    else Outcome(Ok(Unit), seq(|rows|, k requires 0 <= k < |rows| =>
      if rows[k].employee_id == id then rows[k].(deleted_flag := flag) else rows[k]))
  }

  /**
   After `reset_password` for the account a login name resolves to, that name
   resolves to the same employee, whose hash is now the digest of "123456";
   a login with that password then succeeds whenever its statements and the
   signing go through.
   */
  lemma ResetPasswordThenLogin(db: LoginService.Tables, name: string, env: LoginService.Env, fails: set<Call>)
    requires env.secret.Some? && WritePassword !in fails
    requires LoginService.Account(db, name).Some?
    requires LoginService.FindEmployee !in env.fails && LoginService.FindRoleLink !in env.fails
    requires LoginService.UpdateEmployee !in env.fails
    requires var id := LoginService.Account(db, name).value.employee_id;
             LoginService.RoleLink(db, id).Some? &&
             Identities.New(id, LoginService.SessionToken(id, env)).ToAuthToken(env.now, env.secret, env.jwt).Some?
    ensures var id := LoginService.Account(db, name).value.employee_id;
            var db' := db.(employees := ResetPassword(db.employees, id, env.md5, fails).state);
            LoginService.Account(db', name).Some? &&
            LoginService.Account(db', name).value.employee_id == id &&
            LoginService.Account(db', name).value.login_pwd == env.md5(DefaultPassword) &&
            LoginService.Login(db', LoginService.ReqLogin(name, DefaultPassword), env).result.Ok?
  {
    var id := LoginService.Account(db, name).value.employee_id;
    var db' := db.(employees := ResetPassword(db.employees, id, env.md5, fails).state);
    forall k | 0 <= k < |db.employees|
      ensures db.employees[k].login_name == db'.employees[k].login_name
    {
      if db.employees[k].employee_id == id {
        assert db'.employees[k].(login_pwd := db.employees[k].login_pwd) == db.employees[k];
      }
    }
    LoginService.SameNamesSameFirst(db.employees, db'.employees, name);
    var i := FirstWith(db.employees, LoginNameOf, name).value;
    assert LoginService.Account(db', name) == Some(db'.employees[i]);
    assert LoginService.RoleLink(db', id) == LoginService.RoleLink(db, id);
  }

  /**
   `disabled_flag` never changes what a login answers: it writes only the
   deleted flag, which login does not read.
   */
  lemma DisabledFlagKeepsLogin(db: LoginService.Tables, id: int, flag: Byte, fails: set<Call>,
                               req: LoginService.ReqLogin, env: LoginService.Env)
    requires env.secret.Some?
    ensures var db' := db.(employees := DisabledFlag(db.employees, id, flag, fails).state);
            LoginService.Login(db', req, env).result == LoginService.Login(db, req, env).result
  {
    var db' := db.(employees := DisabledFlag(db.employees, id, flag, fails).state);
    forall k | 0 <= k < |db.employees|
      ensures db.employees[k].(disabled_flag := 0, deleted_flag := 0) ==
              db'.employees[k].(disabled_flag := 0, deleted_flag := 0)
    {
      assert db'.employees[k].(deleted_flag := db.employees[k].deleted_flag) == db.employees[k];
    }
    LoginService.LoginIgnoresFlags(db, db', req, env);
  }

  /** The disabled-flag filter of `list`: 1 for the value "1", 0 for any other value, none when absent. */
  function DisabledFilter(query: map<string, string>): (r: Option<Byte>)
    ensures r.None? <==> "disabled_flag" !in query
    ensures r.Some? ==> (r.value == 1 <==> query["disabled_flag"] == "1") && (r.value == 0 || r.value == 1)
  {
    if "disabled_flag" in query then
      if query["disabled_flag"] == "1" then Some(1) else Some(0)
    else None
  }

  /** `query.get(key)` holding a non-empty value: the only case in which a LIKE filter applies. */
  predicate FilterOn(query: map<string, string>, key: string) {
    key in query && query[key] != ""
  }

  /** Whether `e` passes every filter of `list`; `contains` is the store's LIKE matching. */
  predicate Listed(e: Employee, query: map<string, string>, contains: (string, string) -> bool) {
    (DisabledFilter(query).Some? ==> e.disabled_flag == DisabledFilter(query).value) &&
    (FilterOn(query, "login_name") ==> contains(e.login_name, query["login_name"])) &&
    (FilterOn(query, "phone") ==> contains(e.phone, query["phone"]))
  }

  /** The filter of `list` as a function value. */
  function ListedBy(query: map<string, string>, contains: (string, string) -> bool): Employee -> bool {
    e => Listed(e, query, contains)
  }

  /** `list`: one page of the employees passing the filters, newest key first. */
  function List(rows: seq<Employee>, query: map<string, string>, contains: (string, string) -> bool,
                offset: nat, limit: nat, fails: set<Paging.Call>): (r: Result<Paging.Page<Employee>>)
    ensures r.Ok? <==> Paging.FindRows !in fails && (offset != 0 || Paging.CountRows !in fails)
    ensures r.Err? ==> r.err == SystemError
    ensures r.Ok? ==> forall e :: e in r.value.list ==> e in rows && Listed(e, query, contains)
    ensures r.Ok? ==> var hits := Filter(rows, ListedBy(query, contains));
              |r.value.list| == Paging.PageSize(|hits|, offset, limit)
    ensures r.Ok? && DisabledFilter(query) == Some(1) ==> forall e :: e in r.value.list ==> e.disabled_flag == 1
    ensures r.Ok? && DisabledFilter(query) == Some(0) ==> forall e :: e in r.value.list ==> e.disabled_flag == 0
    ensures r.Ok? ==> Paging.SortedDesc(r.value.list, EmployeeIdOf) && |r.value.list| <= limit
    ensures r.Ok? && DistinctBy(rows, EmployeeIdOf) ==>
              forall e :: e in r.value.list <==>
                e in rows && Listed(e, query, contains) &&
                Paging.InWindow(Filter(rows, ListedBy(query, contains)), EmployeeIdOf, e, offset, limit)
    ensures r.Ok? && offset == 0 ==> r.value.total == |Filter(rows, ListedBy(query, contains))|
    ensures r.Ok? && offset != 0 ==> r.value.total == 0
  {
    var keep := ListedBy(query, contains);
    assert forall e :: keep(e) == Listed(e, query, contains);
    Paging.ListPage(rows, keep, EmployeeIdOf, offset, limit, fails)
  }

  datatype EmpInfo = EmpInfo(employee_id: int, realname: string, department_id: int)

  datatype DeptInfo = DeptInfo(department_id: int, department_name: string)

  datatype SelectOption = SelectOption(employee_id: int, realname: string, department_id: int,
                                       department_name: string)

  /** The department map collected from the list: a later entry for the same id replaces an earlier one. */
  function DepartmentMap(depts: seq<DeptInfo>): map<int, string> {
    if |depts| == 0 then map[]
    else
      var last := depts[|depts| - 1];
      DepartmentMap(depts[..|depts| - 1])[last.department_id := last.department_name]
  }

  /** Reference: the name of the last entry with department id `id`, if any. */
  function LastName(depts: seq<DeptInfo>, id: int): Option<string> {
    if |depts| == 0 then None
    else if depts[|depts| - 1].department_id == id then Some(depts[|depts| - 1].department_name)
    else LastName(depts[..|depts| - 1], id)
  }

  lemma {:induction false} DepartmentMapHoldsLastName(depts: seq<DeptInfo>, id: int)
    ensures id in DepartmentMap(depts) <==> LastName(depts, id).Some?
    ensures id in DepartmentMap(depts) ==> DepartmentMap(depts)[id] == LastName(depts, id).value
  {
    if |depts| > 0 {
      DepartmentMapHoldsLastName(depts[..|depts| - 1], id);
    }
  }

  /** Reference: the employees, in order, whose department id has an entry in the list. */
  function Joined(emps: seq<EmpInfo>, depts: seq<DeptInfo>): (r: seq<SelectOption>)
    ensures |r| <= |emps|
  {
    if |emps| == 0 then []
    else
      var e := emps[|emps| - 1];
      var front := Joined(emps[..|emps| - 1], depts);
      match LastName(depts, e.department_id)
      case None => front
      case Some(name) => front + [SelectOption(e.employee_id, e.realname, e.department_id, name)]
  }

  /** `merge_employee_department`: a hash join of employees onto department names. */
  method MergeEmployeeDepartment(employees: seq<EmpInfo>, departments: seq<DeptInfo>)
    returns (result: seq<SelectOption>)
    ensures result == Joined(employees, departments)
    ensures |result| <= |employees|
    ensures forall k :: 0 <= k < |result| ==>
              LastName(departments, result[k].department_id) == Some(result[k].department_name)
  {
    var departmentMap := DepartmentMap(departments);
    result := [];
    var i := 0;
    while i < |employees|
      invariant 0 <= i <= |employees|
      invariant result == Joined(employees[..i], departments)
    {
      var employee := employees[i];
      DepartmentMapHoldsLastName(departments, employee.department_id);
      assert employees[..i + 1][..i] == employees[..i];
      if employee.department_id in departmentMap {
        result := result + [SelectOption(employee.employee_id, employee.realname, employee.department_id,
                                         departmentMap[employee.department_id])];
      }
      i := i + 1;
    }
    assert employees[..i] == employees;
    JoinedNamesAreLast(employees, departments);
  }

  lemma {:induction false} JoinedNamesAreLast(emps: seq<EmpInfo>, depts: seq<DeptInfo>)
    ensures forall k :: 0 <= k < |Joined(emps, depts)| ==>
              LastName(depts, Joined(emps, depts)[k].department_id) == Some(Joined(emps, depts)[k].department_name)
  {
    if |emps| > 0 {
      JoinedNamesAreLast(emps[..|emps| - 1], depts);
    }
  }

  /**
   The join keeps exactly the employees whose department id is listed: an
   employee appears (with its key, name and department copied) iff the
   department list has an entry for its department.
   */
  lemma {:induction false} JoinedKeepsListedEmployees(emps: seq<EmpInfo>, depts: seq<DeptInfo>, e: EmpInfo)
    ensures (exists o :: o in Joined(emps, depts) &&
               o.employee_id == e.employee_id && o.realname == e.realname && o.department_id == e.department_id)
            <==> e in emps && LastName(depts, e.department_id).Some?
  {
    if |emps| > 0 {
      var front := emps[..|emps| - 1];
      JoinedKeepsListedEmployees(front, depts, e);
      assert emps == front + [emps[|emps| - 1]];
    }
  }
}

=== FILE: identity.dfy ===
/**
 The session identity of pkg/src/identity.rs: an (id, token) pair, its
 display, and the bearer credential built from it. The JSON web token
 library is uninterpreted: `Jwt` carries its encode and decode as
 parameters, and the configured secret is passed in.
 */
module Identities {
  import opened Api
  import opened Decimal

  /** The lifetime of a bearer credential: 24 hours, in seconds. */
  const DaySeconds: int := 24 * 60 * 60

  /** `usize` on a 64-bit target; `i64 as usize` keeps the value modulo 2^64. */
  const UsizeModulus: int := 0x1_0000_0000_0000_0000

  function AsUsize(x: int): (u: nat)
    ensures u < UsizeModulus
    ensures (u - x) % UsizeModulus == 0
    ensures 0 <= x < UsizeModulus ==> u == x
  {
    x % UsizeModulus
  }

  /** The signed claim set: expiry, issue time and subject id. */
  datatype Claims = Claims(exp: nat, iat: nat, id: int)

  /** The signing library: encode may fail, decode validates and may fail. */
  datatype Jwt = Jwt(encode: (Claims, string) -> Option<string>,
                     decode: (string, string) -> Option<Claims>)

  /** Decoding what was just encoded under the same secret gives back the claims. */
  ghost predicate Faithful(jwt: Jwt) {
    forall c, k {:trigger jwt.encode(c, k)} ::
      jwt.encode(c, k).Some? ==> jwt.decode(jwt.encode(c, k).value, k) == Some(c)
  }

  /** The claims minted at Unix time `now` for subject `id`. */
  function ClaimsAt(id: int, now: int): (c: Claims)
    ensures c.id == id
    ensures c.iat < UsizeModulus && (c.iat - now) % UsizeModulus == 0
    ensures c.exp == (c.iat + DaySeconds) % UsizeModulus
    ensures 0 <= now && now + DaySeconds < UsizeModulus ==> c.iat == now && c.exp == now + DaySeconds
  {
    var iat, exp := AsUsize(now), AsUsize(now + DaySeconds);
    AddThenWrap(now, DaySeconds);
    Claims(exp := exp, iat := iat, id := id)
  }

  /** Wrapping before or after adding `d` gives the same value modulo 2^64. */
  lemma AddThenWrap(x: int, d: int)
    ensures (x + d) % UsizeModulus == (x % UsizeModulus + d) % UsizeModulus
  {
    var q := x / UsizeModulus;
    assert x == q * UsizeModulus + x % UsizeModulus;
    assert x + d == q * UsizeModulus + (x % UsizeModulus + d);
  }

  /** Subject id `i` (0 is the anonymous sentinel) and session token `t`. */
  datatype Identity = Identity(i: int, t: string) {

    function Id(): int {
      i
    }

    function MatchToken(token: string): bool {
      t == token
    }

    /**
     "<none>" for the anonymous identity, otherwise "id:<i>|token:<t>": the
     prefix `id:`, the decimal id, a bar, then `token:` and the token.
     */
    function Display(): (s: string)
      ensures s == "<none>" <==> i == 0
      ensures i != 0 ==> |s| > 3 && s[..3] == "id:"
      ensures i != 0 ==> s[3..] == IntToString(i) + "|" + ("token:" + t)
    {
      if i == 0 then "<none>"
      else
        var d, tail := IntToString(i), "|token:" + t;
        assert tail == "|" + ("token:" + t);
        assert ("id:" + (d + tail))[3..] == d + tail;
        "id:" + (d + tail)
    }

    /**
     The signed bearer string for this identity, minted at `now`; None when
     signing fails. Only the id and the clock are signed, and a faithful
     library reads the same claims back under the same secret.
     */
    function ToAuthToken(now: int, secret: Option<string>, jwt: Jwt): (r: Option<string>)
      requires secret.Some?
      ensures r.None? <==> jwt.encode(ClaimsAt(i, now), secret.value).None?
      ensures r.Some? && Faithful(jwt) ==>
                var c := jwt.decode(r.value, secret.value);
                c.Some? && c.value.id == i && c.value.exp == (c.value.iat + DaySeconds) % UsizeModulus &&
                (0 <= now && now + DaySeconds < UsizeModulus ==> c.value.iat == now)
    {
      jwt.encode(ClaimsAt(i, now), secret.value)
    }
  }

  function New(id: int, token: string): (r: Identity)
    ensures r.Id() == id
    ensures forall x :: r.MatchToken(x) <==> x == token
  {
    Identity(id, token)
  }

  function Empty(): (r: Identity)
    ensures r.Id() == 0
    ensures forall x :: r.MatchToken(x) <==> x == ""
    ensures r.Display() == "<none>"
  {
    Identity(0, "")
  }

  /**
   The identity recovered from a bearer string. Both the configured secret and
   a successful decode are unwrapped, so they are preconditions. The token
   field keeps the whole bearer string, not a session token.
   */
  function FromAuthToken(token: string, secret: Option<string>, jwt: Jwt): (r: Identity)
    requires secret.Some? && jwt.decode(token, secret.value).Some?
    ensures r.Id() == jwt.decode(token, secret.value).value.id
    ensures forall x :: r.MatchToken(x) <==> x == token
  {
    Identity(jwt.decode(token, secret.value).value.id, token)
  }

  /** The session token does not enter the credential: only the id is signed. */
  lemma AuthTokenIgnoresSessionToken(a: Identity, b: Identity, now: int, secret: Option<string>, jwt: Jwt)
    requires secret.Some?
    requires a.Id() == b.Id()
    ensures a.ToAuthToken(now, secret, jwt) == b.ToAuthToken(now, secret, jwt)
  {
  }

  /**
   With a faithful signer, the id survives encode then decode, but the
   recovered token field is the bearer string itself, so it matches the
   original session token only when the two strings coincide.
   */
  lemma AuthTokenRoundTrip(a: Identity, now: int, secret: Option<string>, jwt: Jwt)
    requires secret.Some? && Faithful(jwt)
    requires a.ToAuthToken(now, secret, jwt).Some?
    ensures var bearer := a.ToAuthToken(now, secret, jwt).value;
            jwt.decode(bearer, secret.value).Some? &&
            FromAuthToken(bearer, secret, jwt).Id() == a.Id() &&
            (FromAuthToken(bearer, secret, jwt).MatchToken(a.t) <==> a.t == bearer)
  {
    var c := ClaimsAt(a.i, now);
    assert jwt.encode(c, secret.value).Some?;
  }

  /** The position of the first `|` in `s`, or |s| when there is none. */
  function BarIndex(s: string): (k: nat)
    ensures k <= |s|
  {
    if |s| == 0 || s[0] == '|' then 0 else 1 + BarIndex(s[1..])
  }

  lemma {:induction false} BarIndexAfterPlainPrefix(x: string, y: string)
    requires forall i :: 0 <= i < |x| ==> x[i] != '|'
    ensures BarIndex(x + "|" + y) == |x|
  {
    if |x| > 0 {
      assert (x + "|" + y)[1..] == x[1..] + "|" + y;
      BarIndexAfterPlainPrefix(x[1..], y);
    }
  }

  /** Splitting at the first `|` is unique when the left part holds no `|`. */
  lemma SplitAtBar(x: string, y: string, x': string, y': string)
    requires forall i :: 0 <= i < |x| ==> x[i] != '|'
    requires forall i :: 0 <= i < |x'| ==> x'[i] != '|'
    requires x + "|" + y == x' + "|" + y'
    ensures x == x' && y == y'
  {
    var s := x + "|" + y;
    BarIndexAfterPlainPrefix(x, y);
    BarIndexAfterPlainPrefix(x', y');
    assert x == s[..|x|] == x';
    assert y == s[|x| + 1..] == y';
  }

  /** The display of a signed-in identity determines the identity. */
  lemma DisplayInjective(a: Identity, b: Identity)
    requires a.Id() != 0 && b.Id() != 0
    requires a.Display() == b.Display()
    ensures a == b
  {
    IntToStringHasNoBar(a.i);
    IntToStringHasNoBar(b.i);
    SplitAtBar(IntToString(a.i), "token:" + a.t, IntToString(b.i), "token:" + b.t);
    IntToStringInjective(a.i, b.i);
    assert a.t == ("token:" + a.t)[6..];
    assert b.t == ("token:" + b.t)[6..];
  }
}

=== FILE: login.dfy ===
/**
 The login service of app/src/api/service/login.rs over the employee table
 and the role-employee table. The checks run in a fixed order (account
 lookup, role link, password hash), and only a fully successful login
 writes: the employee's session token, login time and update time.
 */
module LoginService {
  import opened Api
  import opened Decimal
  import opened Schema
  import opened Identities

  datatype ReqLogin = ReqLogin(username: string, password: string)

  datatype RespLogin = RespLogin(name: string, role: int, auth_token: string)

  /** The tables login and logout touch. */
  datatype Tables = Tables(employees: seq<Employee>, links: seq<RoleEmployee>)

  /** The statements the two handlers issue; a failing one yields a system error. */
  datatype Call = FindEmployee | FindRoleLink | UpdateEmployee | ClearToken

  /**
   What the handlers take from outside: the clock (Unix seconds), the nonce,
   the MD5 digest as hex text, the configured secret, the signing library,
   and which statements fail.
   */
  datatype Env = Env(now: int, nonce: string, md5: string -> string,
                     secret: Option<string>, jwt: Jwt, fails: set<Call>)

  const NoAccount: string := "账号不存在"
  const NoRoleLink: string := "账号角色关系不存在"
  const WrongPassword: string := "密码错误"

  /** The text `auth.<id>.<now>.<nonce>` whose digest becomes the session token. */
  function SessionSeed(id: int, now: int, nonce: string): string {
    "auth." + IntToString(id) + "." + IntToString(now) + "." + nonce
  }

  /** The fresh session token a login at `env.now` mints for employee `id`. */
  function SessionToken(id: int, env: Env): string {
    env.md5(SessionSeed(id, env.now, env.nonce))
  }

  /** The account a login name resolves to: the first row with that name. */
  function Account(db: Tables, name: string): (r: Option<Employee>)
    ensures r.None? <==> !AnyHas(db.employees, LoginNameOf, name)
    ensures r.Some? ==> r.value in db.employees && r.value.login_name == name
  {
    match FirstWith(db.employees, LoginNameOf, name)
    case None => None
    case Some(k) => Some(db.employees[k])
  }

  /** The role link of an employee: the first link row naming it. */
  function RoleLink(db: Tables, id: int): (r: Option<RoleEmployee>)
    ensures r.None? <==> !AnyHas(db.links, LinkedEmployeeOf, id)
    ensures r.Some? ==> r.value in db.links && r.value.employee_id == id
  {
    match FirstWith(db.links, LinkedEmployeeOf, id)
    case None => None
    case Some(k) => Some(db.links[k])
  }

  /**
   `update_many` on the rows of employee `id`: each of them matches the new
   session token and has login and update time `now`, and keeps every other
   column; the rows of other employees are untouched.
   */
  function StampLogin(rows: seq<Employee>, id: int, token: string, now: int): (r: seq<Employee>)
    ensures |r| == |rows|
    ensures forall k :: 0 <= k < |rows| && rows[k].employee_id == id ==>
              New(id, token).MatchToken(r[k].login_token) && r[k].login_at == now && r[k].update_time == now
    ensures forall k :: 0 <= k < |rows| ==>
              r[k].(login_token := rows[k].login_token, login_at := rows[k].login_at,
                    update_time := rows[k].update_time) == rows[k]
    ensures forall k :: 0 <= k < |rows| && rows[k].employee_id != id ==> r[k] == rows[k]
  {
    seq(|rows|, k requires 0 <= k < |rows| =>
      if rows[k].employee_id == id
      then rows[k].(login_token := token, login_at := now, update_time := now)
      else rows[k])
  }

  /**
   `update_many` on the rows of employee `id`: each of them matches only the
   empty token and has create time `now`, and keeps every other column; the
   rows of other employees are untouched.
   */
  function StampLogout(rows: seq<Employee>, id: int, now: int): (r: seq<Employee>)
    ensures |r| == |rows|
    ensures forall k :: 0 <= k < |rows| && rows[k].employee_id == id ==>
              Empty().MatchToken(r[k].login_token) && r[k].create_time == now
    ensures forall k :: 0 <= k < |rows| ==>
              r[k].(login_token := rows[k].login_token, create_time := rows[k].create_time) == rows[k]
    ensures forall k :: 0 <= k < |rows| && rows[k].employee_id != id ==> r[k] == rows[k]
  {
    seq(|rows|, k requires 0 <= k < |rows| =>
      if rows[k].employee_id == id then rows[k].(login_token := "", create_time := now) else rows[k])
  }

  /** The three checks pass: the account and its role link exist and the password hash matches. */
  predicate PassesChecks(db: Tables, req: ReqLogin, env: Env) {
    FindEmployee !in env.fails && FindRoleLink !in env.fails &&
    Account(db, req.username).Some? &&
    RoleLink(db, Account(db, req.username).value.employee_id).Some? &&
    env.md5(req.password) == Account(db, req.username).value.login_pwd
  }

  /**
   The login service. The secret is unwrapped only when the credential is
   signed, after the three checks, so it is required only of requests that
   pass them.
   */
  function Login(db: Tables, req: ReqLogin, env: Env): (out: Outcome<RespLogin, Tables>)
    requires env.secret.Some? || !PassesChecks(db, req, env)
    // a failure writes nothing
    ensures out.result.Err? ==> out.state == db
    // first check: the account
    ensures FindEmployee in env.fails ==> out.result == Err(SystemError)
    ensures FindEmployee !in env.fails && Account(db, req.username).None? ==>
              out.result == Err(ErrAuth(Some(NoAccount)))
    // second check: the role link, before the password is looked at
    ensures FindEmployee !in env.fails && Account(db, req.username).Some? ==>
              var e := Account(db, req.username).value;
              (FindRoleLink in env.fails ==> out.result == Err(SystemError)) &&
              (FindRoleLink !in env.fails && RoleLink(db, e.employee_id).None? ==>
                 out.result == Err(ErrAuth(Some(NoRoleLink))))
    // third check: the password hash
    ensures FindEmployee !in env.fails && FindRoleLink !in env.fails &&
            Account(db, req.username).Some? &&
            RoleLink(db, Account(db, req.username).value.employee_id).Some? &&
            env.md5(req.password) != Account(db, req.username).value.login_pwd ==>
              out.result == Err(ErrAuth(Some(WrongPassword)))
    // success: exactly when every check, the signing and the write go through
    ensures out.result.Ok? <==>
              FindEmployee !in env.fails && FindRoleLink !in env.fails && UpdateEmployee !in env.fails &&
              Account(db, req.username).Some? &&
              var e := Account(db, req.username).value;
              RoleLink(db, e.employee_id).Some? &&
              env.md5(req.password) == e.login_pwd &&
              New(e.employee_id, SessionToken(e.employee_id, env)).ToAuthToken(env.now, env.secret, env.jwt).Some?
    ensures out.result.Ok? ==>
              var e := Account(db, req.username).value;
              var token := SessionToken(e.employee_id, env);
              && out.result.value.name == e.realname
              && out.result.value.role == RoleLink(db, e.employee_id).value.role_id
              && Some(out.result.value.auth_token) == New(e.employee_id, token).ToAuthToken(env.now, env.secret, env.jwt)
              && out.state == db.(employees := StampLogin(db.employees, e.employee_id, token, env.now))
              && forall k :: 0 <= k < |out.state.employees| && out.state.employees[k].employee_id == e.employee_id ==>
                   New(e.employee_id, token).MatchToken(out.state.employees[k].login_token)
    // a failed session write is a system error
    ensures FindEmployee !in env.fails && FindRoleLink !in env.fails && UpdateEmployee in env.fails &&
            Account(db, req.username).Some? ==>
            var e := Account(db, req.username).value;
            RoleLink(db, e.employee_id).Some? && env.md5(req.password) == e.login_pwd ==>
              out == Outcome(Err(SystemError), db)
    // the credential is signed before the write, so a signing failure writes nothing
    ensures FindEmployee !in env.fails && FindRoleLink !in env.fails && Account(db, req.username).Some? ==>
            var e := Account(db, req.username).value;
            RoleLink(db, e.employee_id).Some? && env.md5(req.password) == e.login_pwd &&
            New(e.employee_id, SessionToken(e.employee_id, env)).ToAuthToken(env.now, env.secret, env.jwt).None? ==>
              out == Outcome(Err(SystemError), db)
  {
    if FindEmployee in env.fails then Outcome(Err(SystemError), db)
    else match Account(db, req.username)
    case None => Outcome(Err(ErrAuth(Some(NoAccount))), db)
    case Some(e) =>
      if FindRoleLink in env.fails then Outcome(Err(SystemError), db)
      else match RoleLink(db, e.employee_id)
      case None => Outcome(Err(ErrAuth(Some(NoRoleLink))), db)
      case Some(link) =>
        if env.md5(req.password) != e.login_pwd then Outcome(Err(ErrAuth(Some(WrongPassword))), db)
        else
          var token := SessionToken(e.employee_id, env);
          match New(e.employee_id, token).ToAuthToken(env.now, env.secret, env.jwt)
          case None => Outcome(Err(SystemError), db)
          case Some(auth) =>
            if UpdateEmployee in env.fails then Outcome(Err(SystemError), db)
            else
              Outcome(Ok(RespLogin(e.realname, link.role_id, auth)),
                      db.(employees := StampLogin(db.employees, e.employee_id, token, env.now)))
  }

  /** The logout service: clears the session token of the identity's rows and stamps create_time. */
  function Logout(db: Tables, identity: Identity, now: int, fails: set<Call>): (out: Outcome<Unit, Tables>)
    ensures ClearToken in fails ==> out == Outcome(Err(SystemError), db)
    ensures ClearToken !in fails ==> out.result == Ok(Unit) && out.state.links == db.links
    ensures ClearToken !in fails ==>
              |out.state.employees| == |db.employees| &&
              forall k :: 0 <= k < |db.employees| ==>
                var before, after := db.employees[k], out.state.employees[k];
                if before.employee_id == identity.Id()
                then after.login_token == "" && after.create_time == now &&
                     after.(login_token := before.login_token, create_time := before.create_time) == before
                else after == before
  {
    if ClearToken in fails then Outcome(Err(SystemError), db)
    else Outcome(Ok(Unit), db.(employees := StampLogout(db.employees, identity.Id(), now)))
  }

  /** Rows that differ at most in their disabled and deleted flags. */
  predicate SameButFlags(a: seq<Employee>, b: seq<Employee>) {
    |a| == |b| &&
    forall k :: 0 <= k < |a| ==>
      a[k].(disabled_flag := 0, deleted_flag := 0) == b[k].(disabled_flag := 0, deleted_flag := 0)
  }

  /** Rows with the same login names at the same positions resolve a name to the same index. */
  lemma {:induction false} SameNamesSameFirst(a: seq<Employee>, b: seq<Employee>, name: string)
    requires |a| == |b| && forall k :: 0 <= k < |a| ==> a[k].login_name == b[k].login_name
    ensures FirstWith(a, LoginNameOf, name) == FirstWith(b, LoginNameOf, name)
  {
    if |a| > 0 {
      assert forall k :: 0 <= k < |a[1..]| ==> a[1..][k] == a[k + 1] && b[1..][k] == b[k + 1];
      SameNamesSameFirst(a[1..], b[1..], name);
    }
  }

  /**
   Whether a login succeeds, and what it answers, does not depend on the
   disabled or deleted flags: a disabled or deleted account can sign in.
   */
  lemma LoginIgnoresFlags(db: Tables, db': Tables, req: ReqLogin, env: Env)
    requires env.secret.Some?
    requires db'.links == db.links && SameButFlags(db.employees, db'.employees)
    ensures Login(db, req, env).result == Login(db', req, env).result
  {
    forall k | 0 <= k < |db.employees|
      ensures db.employees[k].login_name == db'.employees[k].login_name
    {
      assert db.employees[k].(disabled_flag := 0, deleted_flag := 0).login_name == db.employees[k].login_name;
      assert db'.employees[k].(disabled_flag := 0, deleted_flag := 0).login_name == db'.employees[k].login_name;
    }
    SameNamesSameFirst(db.employees, db'.employees, req.username);
    var i := FirstWith(db.employees, LoginNameOf, req.username);
    if i.Some? {
      var e, e' := db.employees[i.value], db'.employees[i.value];
      assert e.(disabled_flag := 0, deleted_flag := 0) == e'.(disabled_flag := 0, deleted_flag := 0);
      assert e.employee_id == e'.employee_id && e.login_pwd == e'.login_pwd && e.realname == e'.realname;
      assert Account(db', req.username) == Some(e');
    }
  }

  /** Logging out twice leaves the token empty, and repeating it at the same instant changes nothing. */
  lemma LogoutIdempotent(db: Tables, identity: Identity, now: int, now': int, fails: set<Call>)
    requires ClearToken !in fails
    ensures var once := Logout(db, identity, now, fails).state;
            var twice := Logout(once, identity, now', fails).state;
            (forall k :: 0 <= k < |twice.employees| && twice.employees[k].employee_id == identity.Id() ==>
                          twice.employees[k].login_token == "") &&
            (now == now' ==> twice == once)
  {
    var once := Logout(db, identity, now, fails).state;
    var twice := Logout(once, identity, now', fails).state;
    assert |twice.employees| == |once.employees| == |db.employees|;
    forall k | 0 <= k < |db.employees|
      ensures twice.employees[k].employee_id == once.employees[k].employee_id == db.employees[k].employee_id
    {
    }
    if now == now' {
      assert twice.employees == once.employees;
    }
  }

  /** A successful login keeps the account's key, password hash and role link. */
  lemma LoginKeepsAccount(db: Tables, req: ReqLogin, env: Env)
    requires env.secret.Some? && Login(db, req, env).result.Ok?
    ensures var e := Account(db, req.username).value;
            var mid := Login(db, req, env).state;
            Account(mid, req.username).Some? &&
            Account(mid, req.username).value.employee_id == e.employee_id &&
            Account(mid, req.username).value.login_pwd == e.login_pwd &&
            RoleLink(mid, e.employee_id) == RoleLink(db, e.employee_id)
  {
    var mid := Login(db, req, env).state;
    SameNamesSameFirst(db.employees, mid.employees, req.username);
    var i := FirstWith(db.employees, LoginNameOf, req.username).value;
    assert Account(mid, req.username) == Some(mid.employees[i]);
  }

  /**
   Once an account has signed in, signing in again with the same password
   (under the same digest) succeeds whenever the second attempt's statements and signing go through,
   and the stored token is then the second login's: the first session
   survives only if both logins happened to mint the same token.
   */
  lemma SecondLoginSupersedes(db: Tables, req: ReqLogin, env1: Env, env2: Env)
    requires env1.secret.Some? && env2.secret.Some?
    requires Login(db, req, env1).result.Ok?
    requires env2.md5(req.password) == env1.md5(req.password)
    requires FindEmployee !in env2.fails && FindRoleLink !in env2.fails && UpdateEmployee !in env2.fails
    requires var id := Account(db, req.username).value.employee_id;
             New(id, SessionToken(id, env2)).ToAuthToken(env2.now, env2.secret, env2.jwt).Some?
    ensures var e := Account(db, req.username).value;
            var after := Login(Login(db, req, env1).state, req, env2);
            after.result.Ok? &&
            forall k :: 0 <= k < |after.state.employees| && after.state.employees[k].employee_id == e.employee_id ==>
              after.state.employees[k].login_token == SessionToken(e.employee_id, env2)
  {
    LoginKeepsAccount(db, req, env1);
  }
}

=== FILE: login_controller.dfy ===
/**
 The login and logout handlers of app/src/api/controller/login.rs: request
 validation in front of the login service, and the anonymous short-circuit
 in front of the logout service.
 */
module LoginController {
  import opened Api
  import opened Identities
  import LoginService

  const UsernameRequired: string := "用户名必填"
  const PasswordRequired: string := "密码必填"

  /** The messages of the request's failed rules: both fields need at least one character. */
  function Violations(req: LoginService.ReqLogin): (v: set<string>)
    ensures v == {} <==> req.username != "" && req.password != ""
    ensures UsernameRequired in v <==> req.username == ""
    ensures PasswordRequired in v <==> req.password == ""
  {
    (if req.username == "" then {UsernameRequired} else {}) +
    (if req.password == "" then {PasswordRequired} else {})
  }

  /**
   The login handler. `render` is the validator's rendering of the failed
   rules into the message of the parameter error.
   */
  function Login(db: LoginService.Tables, req: LoginService.ReqLogin, env: LoginService.Env,
                 render: set<string> -> string): (out: Outcome<LoginService.RespLogin, LoginService.Tables>)
    requires env.secret.Some? || req.username == "" || req.password == "" || !LoginService.PassesChecks(db, req, env)
    ensures req.username == "" || req.password == "" ==>
              out == Outcome(Err(ErrParams(Some(render(Violations(req))))), db)
    ensures req.username != "" && req.password != "" ==> out == LoginService.Login(db, req, env)
  {
    var v := Violations(req);
    if v != {} then Outcome(Err(ErrParams(Some(render(v)))), db)
    else LoginService.Login(db, req, env)
  }

  /** The logout handler: the anonymous identity (id 0) succeeds without touching anything. */
  function Logout(db: LoginService.Tables, identity: Identity, now: int, fails: set<LoginService.Call>)
    : (out: Outcome<Unit, LoginService.Tables>)
    ensures identity.Id() == 0 ==> out == Outcome(Ok(Unit), db)
    ensures identity.Id() != 0 ==> out == LoginService.Logout(db, identity, now, fails)
  {
    if identity.Id() == 0 then Outcome(Ok(Unit), db)
    else LoginService.Logout(db, identity, now, fails)
  }

  /** Logging out the empty identity always succeeds and writes nothing, whatever would fail. */
  lemma AnonymousLogoutIsNoOp(db: LoginService.Tables, now: int, fails: set<LoginService.Call>)
    ensures Logout(db, Empty(), now, fails) == Outcome(Ok(Unit), db)
  {
  }
}

=== FILE: paging.dfy ===
/**
 The list endpoints of the role, employee and position services share one
 shape: filter the table, count the matches only when the page starts at
 offset 0, then read one page ordered by primary key, descending. The
 filter (the ORM's LIKE matching) and the offset/limit pair (computed from
 the query string) are parameters.
 */
module Paging {
  import opened Api
  import opened Schema

  /** The two statements a list issues; a failing one yields a system error. */
  datatype Call = CountRows | FindRows

  datatype Page<T> = Page(total: int, list: seq<T>)

  predicate SortedDesc<T>(rows: seq<T>, key: T -> int) {
    forall i, j :: 0 <= i < j < |rows| ==> key(rows[i]) >= key(rows[j])
  }

  /** Place `x` into a sequence before the first row whose key does not exceed its own. */
  function Insert<T>(x: T, rows: seq<T>, key: T -> int): (r: seq<T>)
    ensures multiset(r) == multiset(rows) + multiset{x}
    ensures |r| == |rows| + 1
    ensures forall k :: 0 <= k < |r| ==> r[k] == x || r[k] in rows
  {
    if |rows| == 0 then [x]
    else if key(x) >= key(rows[0]) then [x] + rows
    else
      assert rows == [rows[0]] + rows[1..];
      [rows[0]] + Insert(x, rows[1..], key)
  }

  /** A row whose key bounds every key of a sorted sequence can go in front of it. */
  lemma ConsSorted<T>(h: T, t: seq<T>, key: T -> int)
    requires SortedDesc(t, key)
    requires forall k :: 0 <= k < |t| ==> key(t[k]) <= key(h)
    ensures SortedDesc([h] + t, key)
  {
    var r := [h] + t;
    forall i, j | 0 <= i < j < |r|
      ensures key(r[i]) >= key(r[j])
    {
      assert r[j] == t[j - 1];
      if i > 0 {
        assert r[i] == t[i - 1];
      }
    }
  }

  lemma {:induction false} InsertSorted<T>(x: T, rows: seq<T>, key: T -> int)
    requires SortedDesc(rows, key)
    ensures SortedDesc(Insert(x, rows, key), key)
  {
    if |rows| == 0 {
    } else if key(x) >= key(rows[0]) {
      ConsSorted(x, rows, key);
    } else {
      var tail := Insert(x, rows[1..], key);
      InsertSorted(x, rows[1..], key);
      forall k | 0 <= k < |tail|
        ensures key(tail[k]) <= key(rows[0])
      {
        if tail[k] != x {
          var m :| 0 <= m < |rows[1..]| && rows[1..][m] == tail[k];
          assert rows[m + 1] == tail[k];
        }
      }
      ConsSorted(rows[0], tail, key);
    }
  }

  /** The table ordered by `key`, largest first (ORDER BY key DESC). */
  function SortDesc<T>(rows: seq<T>, key: T -> int): (r: seq<T>)
    ensures SortedDesc(r, key)
    ensures multiset(r) == multiset(rows)
    ensures |r| == |rows|
  {
    if |rows| == 0 then []
    else
      assert rows == [rows[0]] + rows[1..];
      var rest := SortDesc(rows[1..], key);
      InsertSorted(rows[0], rest, key);
      Insert(rows[0], rest, key)
  }

  function Min(a: int, b: int): int {
    if a <= b then a else b
  }

  lemma SliceSorted<T>(s: seq<T>, key: T -> int, lo: nat, hi: nat)
    requires SortedDesc(s, key) && lo <= hi <= |s|
    ensures SortedDesc(s[lo..hi], key)
    ensures forall x :: x in s[lo..hi] ==> x in s
  {
    forall i, j | 0 <= i < j < hi - lo
      ensures key(s[lo..hi][i]) >= key(s[lo..hi][j])
    {
      assert s[lo..hi][i] == s[lo + i] && s[lo..hi][j] == s[lo + j];
    }
  }

  lemma SameMembers<T>(a: seq<T>, b: seq<T>)
    requires multiset(a) == multiset(b)
    ensures forall x :: x in a ==> x in b
  {
    forall x | x in a
      ensures x in b
    {
      assert x in multiset(a);
    }
  }

  /** Whether a row's key is above `t`. */
  function Above<T>(key: T -> int, t: int): T -> bool {
    y => key(y) > t
  }

  /** The rank of `x` among `hits`: how many of them have a larger key. */
  function Rank<T(!new)>(hits: seq<T>, key: T -> int, x: T): nat {
    |Filter(hits, Above(key, key(x)))|
  }

  /**
   Whether `x` falls on the page that skips `offset` rows and shows `limit`
   (OFFSET offset LIMIT limit over ORDER BY key DESC).
   */
  predicate InWindow<T(!new)>(hits: seq<T>, key: T -> int, x: T, offset: nat, limit: nat) {
    offset <= Rank(hits, key, x) < offset + limit
  }

  /** Filtering with the same test keeps the same number of rows from two permutations. */
  lemma FilterSameSize<T(!new)>(a: seq<T>, b: seq<T>, keep: T -> bool)
    requires multiset(a) == multiset(b)
    ensures |Filter(a, keep)| == |Filter(b, keep)|
  {
    var fa, fb := Filter(a, keep), Filter(b, keep);
    forall x
      ensures multiset(fa)[x] == multiset(fb)[x]
    {
      if keep(x) {
        assert multiset(fa)[x] == multiset(a)[x];
      }
    }
    assert multiset(fa) == multiset(fb);
    assert |multiset(fa)| == |fa| && |multiset(fb)| == |fb|;
  }

  /** In a sequence whose first `i` rows (and only those) have keys above `t`, `i` rows pass `Above(key, t)`. */
  lemma {:induction false} CountAbove<T(!new)>(s: seq<T>, key: T -> int, t: int, i: nat)
    requires i <= |s|
    requires forall j :: 0 <= j < i ==> key(s[j]) > t
    requires forall j :: i <= j < |s| ==> key(s[j]) <= t
    ensures |Filter(s, Above(key, t))| == i
  {
    var f := Above(key, t);
    if i > 0 {
      assert s == [s[0]] + s[1..];
      assert f(s[0]);
      forall j | 0 <= j < i - 1
        ensures key(s[1..][j]) > t
      {
        assert s[1..][j] == s[j + 1];
      }
      forall j | i - 1 <= j < |s[1..]|
        ensures key(s[1..][j]) <= t
      {
        assert s[1..][j] == s[j + 1];
      }
      CountAbove(s[1..], key, t, i - 1);
    }
  }

  /** Keys that are distinct and descending are strictly descending. */
  lemma StrictlySorted<T>(s: seq<T>, key: T -> int, i: nat, j: nat)
    requires SortedDesc(s, key) && DistinctBy(s, key)
    requires i < j < |s|
    ensures key(s[i]) > key(s[j])
  {
  }

  /** In a sequence sorted by distinct keys, descending, the row at index `i` has rank `i`. */
  lemma RankIsIndex<T(!new)>(s: seq<T>, key: T -> int, i: nat)
    requires SortedDesc(s, key) && DistinctBy(s, key) && i < |s|
    ensures Rank(s, key, s[i]) == i
  {
    forall j | 0 <= j < i
      ensures key(s[j]) > key(s[i])
    {
      StrictlySorted(s, key, j, i);
    }
    CountAbove(s, key, key(s[i]), i);
  }

  /** Inserting a row whose key no row has keeps the keys distinct. */
  lemma {:induction false} InsertDistinct<T>(x: T, rows: seq<T>, key: T -> int)
    requires DistinctBy(rows, key)
    requires forall y :: y in rows ==> key(y) != key(x)
    ensures DistinctBy(Insert(x, rows, key), key)
  {
    if |rows| > 0 && key(x) < key(rows[0]) {
      var tail := Insert(x, rows[1..], key);
      assert DistinctBy(rows[1..], key) by {
        forall i, j | 0 <= i < j < |rows[1..]|
          ensures key(rows[1..][i]) != key(rows[1..][j])
        {
          assert rows[1..][i] == rows[i + 1] && rows[1..][j] == rows[j + 1];
        }
      }
      InsertDistinct(x, rows[1..], key);
      forall k | 0 <= k < |tail|
        ensures key(tail[k]) != key(rows[0])
      {
        if tail[k] != x {
          var m :| 0 <= m < |rows[1..]| && rows[1..][m] == tail[k];
          assert rows[m + 1] == tail[k];
        }
      }
      PrependFreshKey(rows[0], tail, key);
    } else if |rows| > 0 {
      PrependFreshKey(x, rows, key);
    }
  }

  /** Sorting keeps distinct keys distinct. */
  lemma {:induction false} SortDescDistinct<T>(rows: seq<T>, key: T -> int)
    requires DistinctBy(rows, key)
    ensures DistinctBy(SortDesc(rows, key), key)
  {
    if |rows| > 0 {
      var rest := SortDesc(rows[1..], key);
      assert DistinctBy(rows[1..], key) by {
        forall i, j | 0 <= i < j < |rows[1..]|
          ensures key(rows[1..][i]) != key(rows[1..][j])
        {
          assert rows[1..][i] == rows[i + 1] && rows[1..][j] == rows[j + 1];
        }
      }
      SortDescDistinct(rows[1..], key);
      SameMembers(rest, rows[1..]);
      forall y | y in rest
        ensures key(y) != key(rows[0])
      {
        var m :| 0 <= m < |rows[1..]| && rows[1..][m] == y;
        assert rows[m + 1] == y;
      }
      InsertDistinct(rows[0], rest, key);
    }
  }

  /** With distinct keys, the row at index `i` is in a slice exactly when `i` is in its range. */
  lemma SliceMember<T>(s: seq<T>, key: T -> int, lo: nat, hi: nat, i: nat)
    requires DistinctBy(s, key) && lo <= hi <= |s| && i < |s|
    ensures s[i] in s[lo..hi] <==> lo <= i < hi
  {
    if s[i] in s[lo..hi] {
      var j :| 0 <= j < hi - lo && s[lo..hi][j] == s[i];
      assert s[lo + j] == s[i];
      StrictIndex(s, key, i, lo + j);
    }
  }

  /** One hit is in the slice [lo, hi) of the sorted hits exactly when its rank is in the window. */
  lemma WindowMember<T(!new)>(hits: seq<T>, s: seq<T>, key: T -> int, offset: nat, limit: nat, i: nat)
    requires multiset(s) == multiset(hits) && i < |s| && Rank(s, key, s[i]) == i
    requires s[i] in s[Min(offset, |s|)..Min(offset + limit, |s|)] <==>
             Min(offset, |s|) <= i < Min(offset + limit, |s|)
    ensures s[i] in s[Min(offset, |s|)..Min(offset + limit, |s|)] <==> InWindow(hits, key, s[i], offset, limit)
  {
    FilterSameSize(hits, s, Above(key, key(s[i])));
  }

  /** The slice [lo, hi) of the sorted hits holds exactly the hits whose rank is in the window. */
  lemma SliceIsWindow<T(!new)>(hits: seq<T>, s: seq<T>, key: T -> int, offset: nat, limit: nat)
    requires multiset(s) == multiset(hits) && SortedDesc(s, key) && DistinctBy(s, key)
    ensures forall x :: x in s[Min(offset, |s|)..Min(offset + limit, |s|)] <==>
                        x in hits && InWindow(hits, key, x, offset, limit)
  {
    var lo, hi := Min(offset, |s|), Min(offset + limit, |s|);
    SameMembers(s, hits);
    SameMembers(hits, s);
    forall x
      ensures x in s[lo..hi] <==> x in hits && InWindow(hits, key, x, offset, limit)
    {
      if x in s {
        var i :| 0 <= i < |s| && s[i] == x;
        RankIsIndex(s, key, i);
        SliceMember(s, key, lo, hi, i);
        WindowMember(hits, s, key, offset, limit, i);
      } else {
        assert x !in s[lo..hi];
      }
    }
  }

  /** Distinct keys put a row at one index only. */
  lemma StrictIndex<T>(s: seq<T>, key: T -> int, i: nat, j: nat)
    requires DistinctBy(s, key) && i < |s| && j < |s| && s[i] == s[j]
    ensures i == j
  {
  }

  /** How many of `n` rows the window [offset, offset + limit) holds. */
  function PageSize(n: nat, offset: nat, limit: nat): nat {
    Min(limit, n - Min(offset, n))
  }

  /**
   The slice [offset, offset + limit) of `hits` ordered by `key`, descending
   (ORDER BY key DESC OFFSET offset LIMIT limit). When the keys are distinct,
   as primary keys are, a hit is on the page exactly when its rank is in the
   window.
   */
  function PageOf<T(!new)>(hits: seq<T>, key: T -> int, offset: nat, limit: nat): (p: seq<T>)
    ensures SortedDesc(p, key) && |p| <= limit
    ensures |p| == PageSize(|hits|, offset, limit)
    ensures forall x :: x in p ==> x in hits
    ensures offset == 0 && |hits| <= limit ==> multiset(p) == multiset(hits)
    ensures DistinctBy(hits, key) ==> forall x :: x in p <==> x in hits && InWindow(hits, key, x, offset, limit)
  {
    var sorted := SortDesc(hits, key);
    var lo := Min(offset, |sorted|);
    var hi := Min(offset + limit, |sorted|);
    SliceSorted(sorted, key, lo, hi);
    SameMembers(sorted, hits);
    assert offset == 0 && |hits| <= limit ==> sorted[lo..hi] == sorted;
    assert DistinctBy(hits, key) ==>
             forall x :: x in sorted[lo..hi] <==> x in hits && InWindow(hits, key, x, offset, limit) by {
      if DistinctBy(hits, key) {
        SortDescDistinct(hits, key);
        SliceIsWindow(hits, sorted, key, offset, limit);
      }
    }
    sorted[lo..hi]
  }

  /**
   Every row on the page of the matches is a stored match; with distinct
   keys, a row is on it exactly when it matches and its rank is in the window.
   */
  lemma PageOfFilter<T(!new)>(rows: seq<T>, keep: T -> bool, key: T -> int, offset: nat, limit: nat)
    ensures var page := PageOf(Filter(rows, keep), key, offset, limit);
            forall x :: x in page ==> x in rows && keep(x)
    ensures var hits := Filter(rows, keep);
            DistinctBy(rows, key) ==>
              forall x :: x in PageOf(hits, key, offset, limit) <==>
                          x in rows && keep(x) && InWindow(hits, key, x, offset, limit)
  {
    if DistinctBy(rows, key) {
      FilterDistinct(rows, keep, key);
    }
  }

  /**
   One page of the rows satisfying `keep`: `total` is their number on the
   first page (offset 0) and 0 on every other page, and `list` is the slice
   [offset, offset + limit) of them ordered by `key`, descending.
   */
  function ListPage<T(!new)>(rows: seq<T>, keep: T -> bool, key: T -> int, offset: nat, limit: nat, fails: set<Call>)
    : (r: Result<Page<T>>)
    ensures r.Ok? <==> FindRows !in fails && (offset != 0 || CountRows !in fails)
    ensures r.Err? ==> r.err == SystemError
    ensures r.Ok? && offset == 0 ==> r.value.total == |Filter(rows, keep)|
    ensures r.Ok? && offset != 0 ==> r.value.total == 0
    ensures r.Ok? ==> SortedDesc(r.value.list, key) && |r.value.list| <= limit
    ensures r.Ok? ==> forall x :: x in r.value.list ==> x in rows && keep(x)
    ensures r.Ok? ==> |r.value.list| == PageSize(|Filter(rows, keep)|, offset, limit)
    ensures r.Ok? && offset == 0 && |Filter(rows, keep)| <= limit ==>
              multiset(r.value.list) == multiset(Filter(rows, keep))
    ensures r.Ok? && DistinctBy(rows, key) ==>
              forall x :: x in r.value.list <==> x in rows && keep(x) && InWindow(Filter(rows, keep), key, x, offset, limit)
  {
    var hits := Filter(rows, keep);
    var page := PageOf(hits, key, offset, limit);
    PageOfFilter(rows, keep, key, offset, limit);
    if offset == 0 && CountRows in fails then Err(SystemError)
    else if FindRows in fails then Err(SystemError)
    else
      var total := if offset == 0 then |hits| else 0;
      Ok(Page(total, page))
  }
}

=== FILE: position.dfy ===
/**
 The position service of app/src/api/service/position.rs: `create` guards
 the position name, `update` and `delete` are unguarded, `info` reports a
 missing key as not-found, and `list` pages by key, descending.
 */
module Positions {
  import opened Api
  import opened Decimal
  import opened Schema
  import Paging

  datatype ReqCreate = ReqCreate(postname: string, level: string, sort: int, remark: string)

  datatype UpdateInfo = UpdateInfo(postid: int, postname: string, level: string, sort: int, remark: string,
                                   create_time: int, create_time_str: string)

  /**
   The columns `update` sends. The position key is not among them: which row
   the store changes is left to the store and is not part of this model.
   */
  datatype PositionPatch = PositionPatch(position_name: string, level: string, sort: int, remark: string,
                                         update_time: int)

  /** The statements the handlers issue; a failing one yields a system error. */
  datatype Call = CountName | InsertPosition | UpdatePosition | DeletePosition | FindPosition

  const NameTaken: string := "职务名称重复"
  const NoSuchPosition: string := "职务信息不存在"

  /** The row `create` inserts; columns it does not set keep their zero default. */
  function NewPosition(req: ReqCreate, id: int, now: int): (p: Position)
    ensures p.position_id == id && p.position_name == req.postname && p.level == req.level
    ensures p.sort == req.sort && p.remark == req.remark
    ensures p.deleted_flag == 0 && p.create_time == now && p.update_time == 0
  {
    Position(id, req.postname, req.level, req.sort, req.remark, 0, now, 0)
  }

  /** `create`: refused when any position has the name; otherwise exactly one position is added. */
  function Create(rows: seq<Position>, req: ReqCreate, id: int, now: int, fails: set<Call>)
    : (out: Outcome<Unit, seq<Position>>)
    ensures out.result.Err? ==> out.state == rows
    ensures CountName in fails ==> out.result == Err(SystemError)
    ensures CountName !in fails && AnyHas(rows, PositionNameOf, req.postname) ==>
              out.result == Err(ErrPerm(Some(NameTaken)))
    ensures CountName !in fails && !AnyHas(rows, PositionNameOf, req.postname) && InsertPosition in fails ==>
              out.result == Err(SystemError)
    ensures out.result.Ok? <==>
              CountName !in fails && InsertPosition !in fails && !AnyHas(rows, PositionNameOf, req.postname)
    ensures out.result.Ok? ==> out.state == rows + [NewPosition(req, id, now)]
  {
    if CountName in fails then Outcome(Err(SystemError), rows)
    else if AnyHas(rows, PositionNameOf, req.postname) then Outcome(Err(ErrPerm(Some(NameTaken))), rows)
    else if InsertPosition in fails then Outcome(Err(SystemError), rows)
    else Outcome(Ok(Unit), rows + [NewPosition(req, id, now)])
  }

  /** A successful create with a fresh key keeps keys and names unique. */
  lemma CreateKeepsUnique(rows: seq<Position>, req: ReqCreate, id: int, now: int, fails: set<Call>)
    requires DistinctBy(rows, PositionIdOf) && DistinctBy(rows, PositionNameOf)
    requires !AnyHas(rows, PositionIdOf, id)
    requires Create(rows, req, id, now, fails).result.Ok?
    ensures DistinctBy(Create(rows, req, id, now, fails).state, PositionIdOf)
    ensures DistinctBy(Create(rows, req, id, now, fails).state, PositionNameOf)
  {
    AppendFreshKey(rows, PositionIdOf, NewPosition(req, id, now));
    AppendFreshKey(rows, PositionNameOf, NewPosition(req, id, now));
  }

  /** `update`: no duplicate check; the patch is written whenever the store accepts it. */
  function Update(req: UpdateInfo, now: int, fails: set<Call>): (r: Result<PositionPatch>)
    ensures r.Ok? <==> UpdatePosition !in fails
    ensures r.Err? ==> r.err == SystemError
    ensures r.Ok? ==> r.value == PositionPatch(req.postname, req.level, req.sort, req.remark, now)
  {
    if UpdatePosition in fails then Err(SystemError)
    else Ok(PositionPatch(req.postname, req.level, req.sort, req.remark, now))
  }

  /**
   The request's `postid` (and its echoed create time) never reach the
   statement: two requests that differ only there write the same patch.
   */
  lemma UpdateIgnoresKey(a: UpdateInfo, b: UpdateInfo, now: int, fails: set<Call>)
    requires a.postname == b.postname && a.level == b.level && a.sort == b.sort && a.remark == b.remark
    ensures Update(a, now, fails) == Update(b, now, fails)
  {
  }

  /** The positions left after `delete_by_id(postid as i64)`: every other position, as often as stored. */
  function WithoutPosition(rows: seq<Position>, id: int): (r: seq<Position>)
    ensures forall x :: x in r <==> x in rows && x.position_id != id
    ensures forall x: Position :: x.position_id != id ==> multiset(r)[x] == multiset(rows)[x]
  {
    if |rows| == 0 then []
    else
      assert rows == [rows[0]] + rows[1..];
      (if rows[0].position_id == id then [] else [rows[0]]) + WithoutPosition(rows[1..], id)
  }

  /** Whether a position's key differs from `id`. */
  function KeyIsNot(id: int): Position -> bool {
    (x: Position) => x.position_id != id
  }

  /** The survivors keep their storage order: the delete is the order-preserving filter on the key. */
  lemma {:induction false} WithoutPositionInOrder(rows: seq<Position>, id: int)
    ensures WithoutPosition(rows, id) == Filter(rows, KeyIsNot(id))
  {
    if |rows| > 0 {
      WithoutPositionInOrder(rows[1..], id);
      assert KeyIsNot(id)(rows[0]) <==> rows[0].position_id != id;
    }
  }

  /** `delete`: unconditional; the position with key `postid as i64` goes, and no other. */
  function Delete(rows: seq<Position>, postid: U64, fails: set<Call>): (out: Outcome<Unit, seq<Position>>)
    ensures out.result.Ok? <==> DeletePosition !in fails
    ensures out.result.Err? ==> out.result.err == SystemError && out.state == rows
    ensures out.result.Ok? ==>
              forall x :: x in out.state <==> x in rows && x.position_id != AsI64(postid)
    ensures out.result.Ok? ==> out.state == Filter(rows, KeyIsNot(AsI64(postid)))
  {
    WithoutPositionInOrder(rows, AsI64(postid));
    if DeletePosition in fails then Outcome(Err(SystemError), rows)
    else Outcome(Ok(Unit), WithoutPosition(rows, AsI64(postid)))
  }

  /** A delete keeps position keys and names unique. */
  lemma DeleteKeepsUnique(rows: seq<Position>, postid: U64, fails: set<Call>)
    requires DistinctBy(rows, PositionIdOf) && DistinctBy(rows, PositionNameOf)
    ensures DistinctBy(Delete(rows, postid, fails).state, PositionIdOf)
    ensures DistinctBy(Delete(rows, postid, fails).state, PositionNameOf)
  {
    var keep := KeyIsNot(AsI64(postid));
    FilterDistinct(rows, keep, PositionIdOf);
    FilterDistinct(rows, keep, PositionNameOf);
  }

  /** The path key 2^64 - 1 is cast to -1, so it removes the positions keyed -1 and no others. */
  lemma DeleteWrapsLargeKey(rows: seq<Position>, fails: set<Call>)
    requires DeletePosition !in fails
    ensures var after := Delete(rows, 0xffff_ffff_ffff_ffff, fails).state;
            forall x :: x in after <==> x in rows && x.position_id != -1
  {
  }

  /** `info`: the position whose key is `postid as i64`, or not-found. */
  function Info(rows: seq<Position>, postid: U64, fails: set<Call>): (r: Result<Position>)
    ensures FindPosition in fails ==> r == Err(SystemError)
    ensures FindPosition !in fails && !AnyHas(rows, PositionIdOf, AsI64(postid)) ==>
              r == Err(ErrNotFound(Some(NoSuchPosition)))
    ensures r.Ok? <==> FindPosition !in fails && AnyHas(rows, PositionIdOf, AsI64(postid))
    ensures r.Ok? ==> r.value in rows && r.value.position_id == AsI64(postid)
  {
    if FindPosition in fails then Err(SystemError)
    else match FirstWith(rows, PositionIdOf, AsI64(postid))
      case None => Err(ErrNotFound(Some(NoSuchPosition)))
      case Some(k) => Ok(rows[k])
  }

  /** Deleting a position makes its `info` report not-found. */
  lemma InfoAfterDelete(rows: seq<Position>, postid: U64, fails: set<Call>)
    requires DeletePosition !in fails && FindPosition !in fails
    ensures Info(Delete(rows, postid, fails).state, postid, fails) == Err(ErrNotFound(Some(NoSuchPosition)))
  {
  }

  /** Whether a position passes the name filter of `list`; `contains` is the store's LIKE matching. */
  predicate Listed(p: Position, query: map<string, string>, contains: (string, string) -> bool) {
    "postname" in query && query["postname"] != "" ==> contains(p.position_name, query["postname"])
  }

  /** The filter of `list` as a function value. */
  function ListedBy(query: map<string, string>, contains: (string, string) -> bool): Position -> bool {
    x => Listed(x, query, contains)
  }

  /** `list`: the total is counted on the first page only; rows come newest key first. */
  function List(rows: seq<Position>, query: map<string, string>, contains: (string, string) -> bool,
                offset: nat, limit: nat, fails: set<Paging.Call>): (r: Result<Paging.Page<Position>>)
    ensures r.Ok? <==> Paging.FindRows !in fails && (offset != 0 || Paging.CountRows !in fails)
    ensures r.Err? ==> r.err == SystemError
    ensures r.Ok? && offset != 0 ==> r.value.total == 0
    ensures r.Ok? && offset == 0 ==> r.value.total == |Filter(rows, ListedBy(query, contains))|
    ensures r.Ok? ==> var hits := Filter(rows, ListedBy(query, contains));
              |r.value.list| == Paging.PageSize(|hits|, offset, limit)
    ensures r.Ok? ==> Paging.SortedDesc(r.value.list, PositionIdOf) && |r.value.list| <= limit
    ensures r.Ok? ==> forall x :: x in r.value.list ==> x in rows && Listed(x, query, contains)
    ensures r.Ok? && DistinctBy(rows, PositionIdOf) ==>
              forall x :: x in r.value.list <==>
                x in rows && Listed(x, query, contains) &&
                Paging.InWindow(Filter(rows, ListedBy(query, contains)), PositionIdOf, x, offset, limit)
  {
    var keep := ListedBy(query, contains);
    assert forall x :: keep(x) == Listed(x, query, contains);
    Paging.ListPage(rows, keep, PositionIdOf, offset, limit, fails)
  }
}

=== FILE: role.dfy ===
/**
 The role service of app/src/api/service/role.rs: the name/code guard of
 create and update, the "role still has employees" guard of delete, the
 query-value parse behind `role_emp_list`, the menu tuples handed to
 `build_tree`, the role-menu filter and the paged list.
 */
module Roles {
  import opened Api
  import opened Decimal
  import opened Schema
  import Tree
  import Paging

  datatype ReqCreate = ReqCreate(rolename: string, rolecode: string, remark: string)

  datatype UpdateInfo = UpdateInfo(roleid: int, rolename: string, rolecode: string, remark: string,
                                   create_time: int, create_time_str: string)

  /**
   The columns `update` sends. The role key is not among them: which row the
   store changes is left to the store and is not part of this model.
   */
  datatype RolePatch = RolePatch(role_name: string, role_code: string, remark: string, update_time: int)

  /** The tables `delete` reads and writes. */
  datatype Tables = Tables(roles: seq<Role>, links: seq<RoleEmployee>)

  /** The statements the handlers issue; a failing one yields a system error. */
  datatype Call = CountDuplicates | InsertRole | UpdateRole | CountRoleLinks | DeleteRole | FindMenus
                | FindRoleMenus | FindRole

  const NameOrCodeTaken: string := "角色名称或角色编码重复"
  const RoleHasEmployees: string := "该角色下存在员工，无法删除"

  /** The key `role_emp_list` looks up in the role-employee table when the query names none. */
  const DefaultRoleId: int := 1

  /** Some role already has this name or this code. */
  predicate Clash(roles: seq<Role>, name: string, code: string) {
    AnyHas(roles, RoleNameOf, name) || AnyHas(roles, RoleCodeOf, code)
  }

  /** `convert_string_to_i64`: an absent value stays absent; a present one parses, or reads as 0. */
  function ConvertStringToI64(s: Option<string>): (r: Option<int>)
    ensures r.None? <==> s.None?
    ensures r.Some? ==> IsI64(r.value)
    ensures s.Some? && ParseI64(s.value).Some? ==> r == ParseI64(s.value)
    ensures s.Some? && ParseI64(s.value).None? ==> r == Some(0)
  {
    match s
    case None => None
    case Some(v) => Some(ParseI64(v).GetOr(0))
  }

  /** Converting the display of any 64-bit integer gives the integer back. */
  lemma ConvertRoundTrip(n: int)
    requires IsI64(n)
    ensures ConvertStringToI64(Some(IntToString(n))) == Some(n)
  {
    IntToStringRoundTrip(n);
  }

  /** A value that is not a number reads as role 0. */
  lemma ConvertDefaultsToZero()
    ensures ConvertStringToI64(Some("")) == Some(0)
    ensures ConvertStringToI64(Some("-")) == Some(0)
    ensures ConvertStringToI64(Some("1a")) == Some(0)
  {
    assert !AllDigits("1a") by { assert !IsDigit("1a"[1]); }
  }

  /** A well-formed number beyond 64 bits also reads as role 0, not as a wrapped value. */
  lemma ConvertOverflowIsZero(n: int)
    requires !IsI64(n)
    ensures ConvertStringToI64(Some(IntToString(n))) == Some(0)
  {
    IntToStringRoundTrip(n);
  }

  /**
   The key `role_emp_list` passes to the role-employee table's `find_by_id`:
   the default 1 only when the query has no "roleid" key.
   */
  function RoleEmpListKey(query: map<string, string>): (r: int)
    ensures "roleid" !in query ==> r == DefaultRoleId
    ensures "roleid" in query ==> r == ParseI64(query["roleid"]).GetOr(0)
  {
    ConvertStringToI64(if "roleid" in query then Some(query["roleid"]) else None).GetOr(DefaultRoleId)
  }

  /** `create`: refused when any role has the name or the code; otherwise exactly one role is added. */
  function Create(roles: seq<Role>, req: ReqCreate, id: int, now: int, fails: set<Call>)
    : (out: Outcome<Unit, seq<Role>>)
    ensures out.result.Err? ==> out.state == roles
    ensures CountDuplicates in fails ==> out.result == Err(SystemError)
    ensures CountDuplicates !in fails && Clash(roles, req.rolename, req.rolecode) ==>
              out.result == Err(ErrPerm(Some(NameOrCodeTaken)))
    ensures out.result.Ok? <==>
              CountDuplicates !in fails && InsertRole !in fails && !Clash(roles, req.rolename, req.rolecode)
    ensures out.result.Ok? ==>
              out.state == roles + [Role(id, req.rolename, req.rolecode, req.remark, now, 0)]
    ensures out.result.Err? && CountDuplicates !in fails && !Clash(roles, req.rolename, req.rolecode) ==>
              out.result == Err(SystemError)
  {
    if CountDuplicates in fails then Outcome(Err(SystemError), roles)
    else if Clash(roles, req.rolename, req.rolecode) then Outcome(Err(ErrPerm(Some(NameOrCodeTaken))), roles)
    else if InsertRole in fails then Outcome(Err(SystemError), roles)
    else Outcome(Ok(Unit), roles + [Role(id, req.rolename, req.rolecode, req.remark, now, 0)])
  }

  /** No two roles share a key, a name or a code. */
  predicate Unique(roles: seq<Role>) {
    DistinctBy(roles, RoleIdOf) && DistinctBy(roles, RoleNameOf) && DistinctBy(roles, RoleCodeOf)
  }

  /** A successful create with a fresh key keeps keys, names and codes unique. */
  lemma CreateKeepsUnique(roles: seq<Role>, req: ReqCreate, id: int, now: int, fails: set<Call>)
    requires Unique(roles) && !AnyHas(roles, RoleIdOf, id)
    requires Create(roles, req, id, now, fails).result.Ok?
    ensures Unique(Create(roles, req, id, now, fails).state)
  {
    var row := Role(id, req.rolename, req.rolecode, req.remark, now, 0);
    AppendFreshKey(roles, RoleIdOf, row);
    AppendFreshKey(roles, RoleNameOf, row);
    AppendFreshKey(roles, RoleCodeOf, row);
  }

  /**
   `update`: refused when any role, the one being updated included, has the
   name or the code; otherwise the patch that is written.
   */
  function Update(roles: seq<Role>, req: UpdateInfo, now: int, fails: set<Call>): (r: Result<RolePatch>)
    ensures CountDuplicates in fails ==> r == Err(SystemError)
    ensures CountDuplicates !in fails && Clash(roles, req.rolename, req.rolecode) ==>
              r == Err(ErrPerm(Some(NameOrCodeTaken)))
    ensures CountDuplicates !in fails && UpdateRole in fails && !Clash(roles, req.rolename, req.rolecode) ==>
              r == Err(SystemError)
    ensures r.Ok? <==> CountDuplicates !in fails && UpdateRole !in fails && !Clash(roles, req.rolename, req.rolecode)
    ensures r.Ok? ==> r.value == RolePatch(req.rolename, req.rolecode, req.remark, now)
  {
    if CountDuplicates in fails then Err(SystemError)
    else if Clash(roles, req.rolename, req.rolecode) then Err(ErrPerm(Some(NameOrCodeTaken)))
    else if UpdateRole in fails then Err(SystemError)
    else Ok(RolePatch(req.rolename, req.rolecode, req.remark, now))
  }

  /** Resubmitting a role with its own name (or its own code) is always refused. */
  lemma UpdateRefusesItself(roles: seq<Role>, req: UpdateInfo, now: int, fails: set<Call>, k: nat)
    requires k < |roles| && roles[k].role_id == req.roleid
    requires roles[k].role_name == req.rolename || roles[k].role_code == req.rolecode
    requires CountDuplicates !in fails
    ensures Update(roles, req, now, fails) == Err(ErrPerm(Some(NameOrCodeTaken)))
  {
    assert RoleNameOf(roles[k]) == roles[k].role_name && RoleCodeOf(roles[k]) == roles[k].role_code;
  }

  const NoSuchRole: string := "角色信息不存在"

  /** `info`: the role whose key is `roleid as i64`, or not-found. */
  function Info(roles: seq<Role>, roleid: U64, fails: set<Call>): (r: Result<Role>)
    ensures FindRole in fails ==> r == Err(SystemError)
    ensures FindRole !in fails && !AnyHas(roles, RoleIdOf, AsI64(roleid)) ==>
              r == Err(ErrNotFound(Some(NoSuchRole)))
    ensures r.Ok? ==> r.value in roles && r.value.role_id == AsI64(roleid)
    ensures r.Ok? <==> FindRole !in fails && AnyHas(roles, RoleIdOf, AsI64(roleid))
  {
    if FindRole in fails then Err(SystemError)
    else match FirstWith(roles, RoleIdOf, AsI64(roleid))
      case None => Err(ErrNotFound(Some(NoSuchRole)))
      case Some(k) => Ok(roles[k])
  }

  /** The roles left after `delete_by_id(roleid as i64)`: every other role, as often as stored. */
  function WithoutRole(roles: seq<Role>, id: int): (r: seq<Role>)
    ensures forall x :: x in r <==> x in roles && x.role_id != id
    ensures forall x: Role :: x.role_id != id ==> multiset(r)[x] == multiset(roles)[x]
  {
    if |roles| == 0 then []
    else
      assert roles == [roles[0]] + roles[1..];
      (if roles[0].role_id == id then [] else [roles[0]]) + WithoutRole(roles[1..], id)
  }

  /** Whether a role's key differs from `id`. */
  function KeyIsNot(id: int): Role -> bool {
    (x: Role) => x.role_id != id
  }

  /** The survivors keep their storage order: the delete is the order-preserving filter on the key. */
  lemma {:induction false} WithoutRoleInOrder(roles: seq<Role>, id: int)
    ensures WithoutRole(roles, id) == Filter(roles, KeyIsNot(id))
  {
    if |roles| > 0 {
      WithoutRoleInOrder(roles[1..], id);
      assert KeyIsNot(id)(roles[0]) <==> roles[0].role_id != id;
    }
  }

  /**
   `delete`: refused while any role-employee row names the role (compared
   with the unsigned path value); otherwise the role with key `roleid as i64`
   is removed.
   */
  function Delete(db: Tables, roleid: U64, fails: set<Call>): (out: Outcome<Unit, Tables>)
    ensures out.result.Err? ==> out.state == db
    ensures out.state.links == db.links
    ensures CountRoleLinks in fails ==> out.result == Err(SystemError)
    ensures CountRoleLinks !in fails && DeleteRole in fails && !AnyHas(db.links, LinkedRoleOf, roleid) ==>
              out.result == Err(SystemError)
    ensures CountRoleLinks !in fails && AnyHas(db.links, LinkedRoleOf, roleid) ==>
              out.result == Err(ErrPerm(Some(RoleHasEmployees)))
    ensures out.result.Ok? <==>
              CountRoleLinks !in fails && DeleteRole !in fails && !AnyHas(db.links, LinkedRoleOf, roleid)
    ensures out.result.Ok? ==>
              forall x :: x in out.state.roles <==> x in db.roles && x.role_id != AsI64(roleid)
    ensures out.result.Ok? ==> out.state == db.(roles := Filter(db.roles, KeyIsNot(AsI64(roleid))))
  {
    WithoutRoleInOrder(db.roles, AsI64(roleid));
    if CountRoleLinks in fails then Outcome(Err(SystemError), db)
    else if AnyHas(db.links, LinkedRoleOf, roleid) then Outcome(Err(ErrPerm(Some(RoleHasEmployees))), db)
    else if DeleteRole in fails then Outcome(Err(SystemError), db)
    else Outcome(Ok(Unit), db.(roles := WithoutRole(db.roles, AsI64(roleid))))
  }

  /** A delete keeps role keys, names and codes unique. */
  lemma DeleteKeepsUnique(db: Tables, roleid: U64, fails: set<Call>)
    requires Unique(db.roles)
    ensures Unique(Delete(db, roleid, fails).state.roles)
  {
    var keep := KeyIsNot(AsI64(roleid));
    FilterDistinct(db.roles, keep, RoleIdOf);
    FilterDistinct(db.roles, keep, RoleNameOf);
    FilterDistinct(db.roles, keep, RoleCodeOf);
  }

  /** Every role-employee row names an existing role. */
  predicate LinksValid(db: Tables) {
    forall l :: l in db.links ==> AnyHas(db.roles, RoleIdOf, l.role_id)
  }

  /** A key other than the deleted one that a stored role had is still held by a survivor. */
  lemma KeyOutlivesDelete(roles: seq<Role>, after: seq<Role>, id: int, k: int)
    requires forall x :: x in after <==> x in roles && x.role_id != id
    requires AnyHas(roles, RoleIdOf, k) && k != id
    ensures AnyHas(after, RoleIdOf, k)
  {
    var j :| 0 <= j < |roles| && RoleIdOf(roles[j]) == k;
    assert roles[j] in after;
    var m :| 0 <= m < |after| && after[m] == roles[j];
    assert RoleIdOf(after[m]) == k;
  }

  /** A delete through the guard never leaves a role-employee row naming a missing role. */
  lemma DeleteKeepsLinksValid(db: Tables, roleid: U64, fails: set<Call>)
    requires LinksValid(db) && roleid <= MaxI64
    ensures LinksValid(Delete(db, roleid, fails).state)
  {
    var out := Delete(db, roleid, fails);
    if out.result.Ok? {
      var after := out.state.roles;
      assert forall x :: x in after <==> x in db.roles && x.role_id != roleid;
      forall l | l in db.links
        ensures AnyHas(after, RoleIdOf, l.role_id)
      {
        var i :| 0 <= i < |db.links| && db.links[i] == l;
        assert LinkedRoleOf(db.links[i]) == l.role_id;
        KeyOutlivesDelete(db.roles, after, roleid, l.role_id);
      }
    }
  }

  /** Deleting a role makes its `info` report not-found. */
  lemma InfoAfterDelete(db: Tables, roleid: U64, fails: set<Call>)
    requires Delete(db, roleid, fails).result.Ok? && FindRole !in fails
    ensures Info(Delete(db, roleid, fails).state.roles, roleid, fails) == Err(ErrNotFound(Some(NoSuchRole)))
  {
  }

  /**
   The link guard compares the unsigned path key while the delete uses its
   signed cast, so above 2^63 - 1 they disagree: deleting with key 2^64 - 1
   passes the guard for a role keyed -1 that still has an employee, and the
   link is left naming a missing role.
   */
  lemma DeleteBypassesGuard()
    ensures var db := Tables([Role(-1, "r", "c", "", 0, 0)], [RoleEmployee(-1, 7)]);
            var out := Delete(db, 0xffff_ffff_ffff_ffff, {});
            LinksValid(db) && out.result.Ok? && !LinksValid(out.state)
  {
    var db := Tables([Role(-1, "r", "c", "", 0, 0)], [RoleEmployee(-1, 7)]);
    assert RoleIdOf(db.roles[0]) == -1;
    assert !AnyHas(db.links, LinkedRoleOf, 0xffff_ffff_ffff_ffff) by {
      assert LinkedRoleOf(db.links[0]) == -1;
    }
    var out := Delete(db, 0xffff_ffff_ffff_ffff, {});
    assert out.state.roles == [];
    assert db.links[0] in out.state.links;
  }

  /** The tuples `menu_list` builds: every menu with its parent wrapped in Some. */
  function MenuEntries(menus: seq<Menu>): (r: seq<Tree.Entry>)
    ensures |r| == |menus|
    ensures forall k :: 0 <= k < |menus| ==>
              r[k] == Tree.Entry(menus[k].menu_id, menus[k].menu_name, Some(menus[k].parent_id))
  {
    seq(|menus|, k requires 0 <= k < |menus| => Tree.Entry(menus[k].menu_id, menus[k].menu_name, Some(menus[k].parent_id)))
  }

  /** No menu is lost to the no-parent branch of `build_tree`. */
  lemma MenuEntriesAllParented(menus: seq<Menu>)
    ensures Tree.WithParent(MenuEntries(menus)) == MenuEntries(menus)
  {
    Tree.AllParentedKept(MenuEntries(menus));
  }

  /** `menu_list`: the menu forest, or None when no menu hangs under 0. */
  function MenuList(menus: seq<Menu>, fails: set<Call>): (r: Result<Option<seq<Tree.TreeNode>>>)
    requires Tree.Terminates(MenuEntries(menus))
    ensures FindMenus in fails <==> r.Err?
    ensures r.Err? ==> r.err == SystemError
    ensures r.Ok? ==> (r.value.None? <==> forall k :: 0 <= k < |menus| ==> menus[k].parent_id != 0)
    ensures r.Ok? && r.value.Some? ==>
              Tree.Describes(r.value.value, 0, MenuEntries(menus), |menus| + 1)
  {
    if FindMenus in fails then Err(SystemError)
    else
      var es := MenuEntries(menus);
      assert forall k :: 0 <= k < |menus| ==> (es[k].parent == Some(0) <==> menus[k].parent_id == 0);
      Ok(Tree.BuildTree(es))
  }

  predicate OfRole(row: RoleMenu, roleid: int) {
    row.role_id == roleid
  }

  /** `role_menu`: exactly the (role, menu) rows of the role, each as often as stored. */
  function RoleMenus(rows: seq<RoleMenu>, roleid: int, fails: set<Call>): (r: Result<seq<RoleMenu>>)
    ensures r.Err? <==> FindRoleMenus in fails
    ensures r.Err? ==> r.err == SystemError
    ensures r.Ok? ==> forall x :: x in r.value <==> x in rows && x.role_id == roleid
    ensures r.Ok? ==> forall x: RoleMenu :: x.role_id == roleid ==> multiset(r.value)[x] == multiset(rows)[x]
  {
    if FindRoleMenus in fails then Err(SystemError)
    else Ok(Filter(rows, x => OfRole(x, roleid)))
  }

  /**
   Storing one more (role, menu) row adds it to the answer for its own role,
   at the end, and leaves the answer for every other role as it was.
   */
  lemma RoleMenusAfterInsert(rows: seq<RoleMenu>, extra: RoleMenu, roleid: int, fails: set<Call>)
    requires FindRoleMenus !in fails
    ensures RoleMenus(rows + [extra], roleid, fails).value ==
            RoleMenus(rows, roleid, fails).value + (if extra.role_id == roleid then [extra] else [])
  {
    FilterAppend(rows, [extra], x => OfRole(x, roleid));
  }

  /** Whether a role passes the name filter of `list`; `contains` is the store's LIKE matching. */
  predicate Listed(r: Role, query: map<string, string>, contains: (string, string) -> bool) {
    "rolename" in query && query["rolename"] != "" ==> contains(r.role_name, query["rolename"])
  }

  /** The filter of `list` as a function value. */
  function ListedBy(query: map<string, string>, contains: (string, string) -> bool): Role -> bool {
    x => Listed(x, query, contains)
  }

  /** `list`: the total is counted on the first page only; rows come newest key first. */
  function List(roles: seq<Role>, query: map<string, string>, contains: (string, string) -> bool,
                offset: nat, limit: nat, fails: set<Paging.Call>): (r: Result<Paging.Page<Role>>)
    ensures r.Ok? <==> Paging.FindRows !in fails && (offset != 0 || Paging.CountRows !in fails)
    ensures r.Err? ==> r.err == SystemError
    ensures r.Ok? && offset != 0 ==> r.value.total == 0
    ensures r.Ok? && offset == 0 ==> r.value.total == |Filter(roles, ListedBy(query, contains))|
    ensures r.Ok? ==> var hits := Filter(roles, ListedBy(query, contains));
              |r.value.list| == Paging.PageSize(|hits|, offset, limit)
    ensures r.Ok? ==> Paging.SortedDesc(r.value.list, RoleIdOf) && |r.value.list| <= limit
    ensures r.Ok? && DistinctBy(roles, RoleIdOf) ==>
              forall x :: x in r.value.list <==>
                x in roles && Listed(x, query, contains) &&
                Paging.InWindow(Filter(roles, ListedBy(query, contains)), RoleIdOf, x, offset, limit)
    ensures r.Ok? ==> forall x :: x in r.value.list ==> x in roles && Listed(x, query, contains)
  {
    var keep := ListedBy(query, contains);
    assert forall x :: keep(x) == Listed(x, query, contains);
    Paging.ListPage(roles, keep, RoleIdOf, offset, limit, fails)
  }
}

=== FILE: schema.dfy ===
/**
 The rows of the tables the services read and write. A table is a sequence
 of rows in storage order; a lookup that takes `.one()` row yields the first
 match in that order. Columns an insert leaves unset take the values of the
 `Blank*` rows below (zero and empty), standing for the column defaults.
 */
module Schema {
  import opened Api

  /** An unsigned 8-bit column (`u8`). */
  type Byte = x: int | 0 <= x < 256

  datatype Employee = Employee(
    employee_id: int,
    login_name: string,
    realname: string,
    phone: string,
    email: string,
    gender: Byte,
    disabled_flag: Byte,
    deleted_flag: Byte,
    position_id: int,
    department_id: int,
    login_pwd: string,
    login_token: string,
    login_at: int,
    create_time: int,
    update_time: int)

  /** The link that gives an employee a role. */
  datatype RoleEmployee = RoleEmployee(role_id: int, employee_id: int)

  datatype Role = Role(
    role_id: int,
    role_name: string,
    role_code: string,
    remark: string,
    create_time: int,
    update_time: int)

  datatype Menu = Menu(menu_id: int, menu_name: string, parent_id: int)

  datatype RoleMenu = RoleMenu(role_id: int, menu_id: int)

  datatype Position = Position(
    position_id: int,
    position_name: string,
    level: string,
    sort: int,
    remark: string,
    deleted_flag: Byte,
    create_time: int,
    update_time: int)

  datatype Department = Department(
    department_id: int,
    department_name: string,
    sort: int,
    manager_id: int,
    parent_id: int,
    create_time: int)

  // Column accessors, passed where a predicate is generic in the key.
  function LoginNameOf(e: Employee): string { e.login_name }
  function PhoneOf(e: Employee): string { e.phone }
  function EmployeeIdOf(e: Employee): int { e.employee_id }
  function LinkedEmployeeOf(l: RoleEmployee): int { l.employee_id }
  function LinkedRoleOf(l: RoleEmployee): int { l.role_id }
  function RoleIdOf(r: Role): int { r.role_id }
  function RoleNameOf(r: Role): string { r.role_name }
  function RoleCodeOf(r: Role): string { r.role_code }
  function PositionIdOf(p: Position): int { p.position_id }
  function PositionNameOf(p: Position): string { p.position_name }
  function DepartmentNameOf(d: Department): string { d.department_name }

  /** The index of the first row with `key` equal to `k` (what `.one()` returns). */
  function FirstWith<T, K(==)>(rows: seq<T>, key: T -> K, k: K): (r: Option<nat>)
    ensures r.None? <==> !AnyHas(rows, key, k)
    ensures r.Some? ==> r.value < |rows| && key(rows[r.value]) == k
    ensures r.Some? ==> forall j :: 0 <= j < r.value ==> key(rows[j]) != k
  {
    if |rows| == 0 then None
    else if key(rows[0]) == k then Some(0)
    else
      match FirstWith(rows[1..], key, k)
      case None => None
      case Some(j) => Some(j + 1)
  }

  /** No two rows of `rows` agree on `key`. */
  predicate DistinctBy<T, K(==)>(rows: seq<T>, key: T -> K) {
    forall i, j :: 0 <= i < j < |rows| ==> key(rows[i]) != key(rows[j])
  }

  /** Some row of `rows` has `key` equal to `k`. */
  predicate AnyHas<T, K(==)>(rows: seq<T>, key: T -> K, k: K) {
    exists i :: 0 <= i < |rows| && key(rows[i]) == k
  }

  /** Appending a row whose key no row has keeps the keys distinct. */
  lemma AppendFreshKey<T, K>(rows: seq<T>, key: T -> K, row: T)
    requires DistinctBy(rows, key)
    requires !AnyHas(rows, key, key(row))
    ensures DistinctBy(rows + [row], key)
  {
    var rows' := rows + [row];
    forall i, j | 0 <= i < j < |rows'|
      ensures key(rows'[i]) != key(rows'[j])
    {
      if j == |rows| {
        assert rows'[i] == rows[i];
      }
    }
  }

  /** The rows satisfying `keep`, in table order. */
  function Filter<T(!new)>(rows: seq<T>, keep: T -> bool): (r: seq<T>)
    ensures |r| <= |rows|
    ensures forall x :: x in r <==> x in rows && keep(x)
    ensures forall x :: keep(x) ==> multiset(r)[x] == multiset(rows)[x]
    ensures forall x :: !keep(x) ==> multiset(r)[x] == 0
  {
    if |rows| == 0 then []
    else
      assert rows == [rows[0]] + rows[1..];
      (if keep(rows[0]) then [rows[0]] else []) + Filter(rows[1..], keep)
  }

  /** Filtering a concatenation filters each part. */
  lemma {:induction false} FilterAppend<T(!new)>(a: seq<T>, b: seq<T>, keep: T -> bool)
    ensures Filter(a + b, keep) == Filter(a, keep) + Filter(b, keep)
  {
    if |a| > 0 {
      assert (a + b)[1..] == a[1..] + b;
      assert (a + b)[0] == a[0];
      FilterAppend(a[1..], b, keep);
    } else {
      assert a + b == b;
    }
  }

  lemma FilterOne<T(!new)>(x: T, keep: T -> bool)
    ensures Filter([x], keep) == if keep(x) then [x] else []
  {
    assert [x][1..] == [];
  }

  /** A row whose key no row of a distinct sequence has can go in front of it. */
  lemma PrependFreshKey<T, K>(h: T, t: seq<T>, key: T -> K)
    requires DistinctBy(t, key)
    requires forall k :: 0 <= k < |t| ==> key(t[k]) != key(h)
    ensures DistinctBy([h] + t, key)
  {
    var r := [h] + t;
    forall i, j | 0 <= i < j < |r|
      ensures key(r[i]) != key(r[j])
    {
      assert r[j] == t[j - 1];
      if i > 0 {
        assert r[i] == t[i - 1];
      }
    }
  }

  /** Filtering keeps distinct keys distinct. */
  lemma {:induction false} FilterDistinct<T(!new), K>(rows: seq<T>, keep: T -> bool, key: T -> K)
    requires DistinctBy(rows, key)
    ensures DistinctBy(Filter(rows, keep), key)
  {
    if |rows| > 0 {
      var tail := Filter(rows[1..], keep);
      assert DistinctBy(rows[1..], key) by {
        forall i, j | 0 <= i < j < |rows[1..]|
          ensures key(rows[1..][i]) != key(rows[1..][j])
        {
          assert rows[1..][i] == rows[i + 1] && rows[1..][j] == rows[j + 1];
        }
      }
      FilterDistinct(rows[1..], keep, key);
      if keep(rows[0]) {
        forall k | 0 <= k < |tail|
          ensures key(tail[k]) != key(rows[0])
        {
          assert tail[k] in tail;
          var m :| 0 <= m < |rows[1..]| && rows[1..][m] == tail[k];
          assert rows[m + 1] == tail[k];
        }
        PrependFreshKey(rows[0], tail, key);
      } else {
        assert Filter(rows, keep) == tail;
      }
    }
  }
}

=== FILE: tree.dfy ===
/**
 `build_tree` of pkg/src/tree.rs: (id, name, parent) entries become a forest
 rooted at parent id 0. The source groups the entries by parent id in a hash
 map, then descends from 0 with no visited set, so it only terminates when
 no parent cycle is reachable from 0. Here the descent carries fuel, and
 `Terminates` (every descent from 0 ends within |nodes| + 1 levels) is the
 precondition; a longer descent would have to revisit an id and so loop.
 */
module Tree {
  import opened Api
  import Schema

  datatype TreeNode = TreeNode(id: int, name: string, children: seq<TreeNode>)

  /** One input tuple: (id, name, parent id). */
  datatype Entry = Entry(id: int, name: string, parent: Option<int>)

  /** The childless node the grouping loop creates for an entry. */
  function Leaf(e: Entry): TreeNode {
    TreeNode(e.id, e.name, [])
  }

  function Leaves(es: seq<Entry>): (r: seq<TreeNode>)
    ensures |r| == |es|
    ensures forall k :: 0 <= k < |es| ==> r[k] == Leaf(es[k])
  {
    if |es| == 0 then [] else Leaves(es[..|es| - 1]) + [Leaf(es[|es| - 1])]
  }

  /**
   The entries whose parent is `p`, in input order: each such entry as often
   as the input holds it, and no other.
   */
  function ChildEntries(p: int, nodes: seq<Entry>): (r: seq<Entry>)
    ensures |r| <= |nodes|
    ensures forall k :: 0 <= k < |r| ==> r[k].parent == Some(p) && r[k] in nodes
    ensures |r| == 0 <==> forall i :: 0 <= i < |nodes| ==> nodes[i].parent != Some(p)
  {
    if |nodes| == 0 then []
    else
      var last := nodes[|nodes| - 1];
      var front := nodes[..|nodes| - 1];
      assert forall i :: 0 <= i < |front| ==> front[i] == nodes[i];
      ChildEntries(p, front) + (if last.parent == Some(p) then [last] else [])
  }

  /** Whether an entry's parent is `p`. */
  function ParentIs(p: int): Entry -> bool {
    (e: Entry) => e.parent == Some(p)
  }

  /** The child list keeps input order: it is the order-preserving filter of the input on the parent. */
  lemma {:induction false} ChildEntriesInOrder(p: int, nodes: seq<Entry>)
    ensures ChildEntries(p, nodes) == Schema.Filter(nodes, ParentIs(p))
  {
    if |nodes| > 0 {
      var front, last := nodes[..|nodes| - 1], nodes[|nodes| - 1];
      assert nodes == front + [last];
      var keep := ParentIs(p);
      ChildEntriesInOrder(p, front);
      Schema.FilterAppend(front, [last], keep);
      Schema.FilterOne(last, keep);
      assert keep(last) <==> last.parent == Some(p);
      assert ChildEntries(p, nodes) == ChildEntries(p, front) + (if last.parent == Some(p) then [last] else []);
    }
  }

  /**
   The `children_by_parent` map of the grouping loop: each entry with a
   parent is pushed, as a leaf, onto the list kept for that parent; entries
   without a parent go to a local list that is never read again.
   */
  function Group(nodes: seq<Entry>): map<int, seq<TreeNode>> {
    if |nodes| == 0 then map[]
    else
      var g := Group(nodes[..|nodes| - 1]);
      var last := nodes[|nodes| - 1];
      match last.parent
      case None => g
      case Some(p) => g[p := GroupAt(g, p) + [Leaf(last)]]
  }

  /** `children_by_parent.get(p)`, an absent key read as no children. */
  function GroupAt(g: map<int, seq<TreeNode>>, p: int): seq<TreeNode> {
    if p in g then g[p] else []
  }

  /** Every descent from `p` through child entries ends within `fuel` levels. */
  predicate Descends(p: int, nodes: seq<Entry>, fuel: nat)
    decreases fuel
  {
    fuel > 0 &&
    forall i :: 0 <= i < |nodes| && nodes[i].parent == Some(p) ==> Descends(nodes[i].id, nodes, fuel - 1)
  }

  /** `build_tree(nodes)` returns: the descent from 0 is finite. */
  predicate Terminates(nodes: seq<Entry>) {
    Descends(0, nodes, |nodes| + 1)
  }

  /** The same finiteness, read off the grouped map. */
  predicate Within(p: int, g: map<int, seq<TreeNode>>, fuel: nat)
    decreases fuel
  {
    fuel > 0 &&
    forall k :: 0 <= k < |GroupAt(g, p)| ==> Within(GroupAt(g, p)[k].id, g, fuel - 1)
  }

  /** `build_subtree(p)`: the grouped children of `p`, each with its own subtree. */
  function Subtree(p: int, g: map<int, seq<TreeNode>>, fuel: nat): seq<TreeNode>
    requires Within(p, g, fuel)
    decreases fuel, 1, 0
  {
    Forest(GroupAt(g, p), g, fuel)
  }

  /** The `flat_map` over one child list: clone each child and attach its subtree. */
  function Forest(cs: seq<TreeNode>, g: map<int, seq<TreeNode>>, fuel: nat): (r: seq<TreeNode>)
    requires fuel > 0
    requires forall k :: 0 <= k < |cs| ==> Within(cs[k].id, g, fuel - 1)
    ensures |r| == |cs|
    ensures forall k :: 0 <= k < |cs| ==> r[k] == cs[k].(children := Subtree(cs[k].id, g, fuel - 1))
    decreases fuel, 0, |cs|
  {
    if |cs| == 0 then []
    else [cs[0].(children := Subtree(cs[0].id, g, fuel - 1))] + Forest(cs[1..], g, fuel)
  }

  /**
   `forest` is exactly what the entries describe below `p`: one node per
   entry whose parent is `p`, in input order, with that entry's id and name,
   and with children described the same way below the node's id.
   */
  predicate Describes(forest: seq<TreeNode>, p: int, nodes: seq<Entry>, fuel: nat)
    decreases fuel
  {
    var es := ChildEntries(p, nodes);
    fuel > 0 && |forest| == |es| &&
    forall k :: 0 <= k < |forest| ==>
      forest[k].id == es[k].id && forest[k].name == es[k].name &&
      Describes(forest[k].children, forest[k].id, nodes, fuel - 1)
  }

  /** `build_tree`: None for empty input or when no entry has parent 0. */
  function BuildTree(nodes: seq<Entry>): (r: Option<seq<TreeNode>>)
    requires Terminates(nodes)
    ensures |nodes| == 0 ==> r == None
    ensures r == None <==> forall i :: 0 <= i < |nodes| ==> nodes[i].parent != Some(0)
    ensures r.Some? ==> |r.value| > 0 && Describes(r.value, 0, nodes, |nodes| + 1)
    ensures r.Some? ==> FromEntries(r.value, nodes)
  {
    if |nodes| == 0 then None
    else
      DescendsWithin(0, nodes, |nodes| + 1);
      var root := Subtree(0, Group(nodes), |nodes| + 1);
      SubtreeDescribes(0, nodes, |nodes| + 1);
      DescribedNodesComeFromEntries(root, 0, nodes, |nodes| + 1);
      if |root| == 0 then None else Some(root)
  }

  /** The grouped list for `p` holds the leaves of the entries whose parent is `p`, in input order. */
  lemma {:induction false} GroupMatchesChildEntries(nodes: seq<Entry>, p: int)
    ensures GroupAt(Group(nodes), p) == Leaves(ChildEntries(p, nodes))
  {
    if |nodes| > 0 {
      var front := nodes[..|nodes| - 1];
      var last := nodes[|nodes| - 1];
      GroupMatchesChildEntries(front, p);
      var es := ChildEntries(p, front);
      if last.parent == Some(p) {
        assert (es + [last])[..|es|] == es;
      } else {
        assert es + [] == es;
      }
    }
  }

  lemma {:induction false} DescendsWithin(p: int, nodes: seq<Entry>, fuel: nat)
    requires Descends(p, nodes, fuel)
    ensures Within(p, Group(nodes), fuel)
    decreases fuel
  {
    var g := Group(nodes);
    GroupMatchesChildEntries(nodes, p);
    var es := ChildEntries(p, nodes);
    forall k | 0 <= k < |GroupAt(g, p)|
      ensures Within(GroupAt(g, p)[k].id, g, fuel - 1)
    {
      var i :| 0 <= i < |nodes| && nodes[i] == es[k];
      DescendsWithin(nodes[i].id, nodes, fuel - 1);
    }
  }

  /** What `build_subtree` computes is what the entries describe. */
  lemma {:induction false} SubtreeDescribes(p: int, nodes: seq<Entry>, fuel: nat)
    requires Descends(p, nodes, fuel)
    ensures Within(p, Group(nodes), fuel)
    ensures Describes(Subtree(p, Group(nodes), fuel), p, nodes, fuel)
    decreases fuel
  {
    DescendsWithin(p, nodes, fuel);
    var g := Group(nodes);
    GroupMatchesChildEntries(nodes, p);
    var es := ChildEntries(p, nodes);
    var forest := Subtree(p, g, fuel);
    forall k | 0 <= k < |forest|
      ensures forest[k].id == es[k].id && forest[k].name == es[k].name
      ensures Describes(forest[k].children, forest[k].id, nodes, fuel - 1)
    {
      var i :| 0 <= i < |nodes| && nodes[i] == es[k];
      SubtreeDescribes(es[k].id, nodes, fuel - 1);
    }
  }

  /** Every node of `forest`, at any depth, carries the id and name of an entry that has a parent. */
  predicate FromEntries(forest: seq<TreeNode>, nodes: seq<Entry>)
    decreases forest
  {
    forall k :: 0 <= k < |forest| ==>
      (exists i :: 0 <= i < |nodes| && nodes[i].parent.Some? &&
                   nodes[i].id == forest[k].id && nodes[i].name == forest[k].name) &&
      FromEntries(forest[k].children, nodes)
  }

  lemma {:induction false} DescribedNodesComeFromEntries(forest: seq<TreeNode>, p: int, nodes: seq<Entry>, fuel: nat)
    requires Describes(forest, p, nodes, fuel)
    ensures FromEntries(forest, nodes)
    decreases forest
  {
    var es := ChildEntries(p, nodes);
    forall k | 0 <= k < |forest|
      ensures exists i :: 0 <= i < |nodes| && nodes[i].parent.Some? &&
                          nodes[i].id == forest[k].id && nodes[i].name == forest[k].name
      ensures FromEntries(forest[k].children, nodes)
    {
      var i :| 0 <= i < |nodes| && nodes[i] == es[k];
      DescribedNodesComeFromEntries(forest[k].children, forest[k].id, nodes, fuel - 1);
    }
  }

  predicate HasParent(e: Entry) {
    e.parent.Some?
  }

  /** The entries that have a parent, each as often as the input holds it. */
  function WithParent(nodes: seq<Entry>): (r: seq<Entry>)
    ensures forall k :: 0 <= k < |r| ==> r[k].parent.Some? && r[k] in nodes
    ensures forall e :: e in r <==> e in nodes && e.parent.Some?
  {
    if |nodes| == 0 then []
    else
      var front := WithParent(nodes[..|nodes| - 1]);
      var last := nodes[|nodes| - 1];
      assert nodes == nodes[..|nodes| - 1] + [last];
      if HasParent(last) then front + [last] else front
  }

  /** The entries with a parent keep input order: the order-preserving filter on having a parent. */
  lemma {:induction false} WithParentInOrder(nodes: seq<Entry>)
    ensures WithParent(nodes) == Schema.Filter(nodes, (e: Entry) => HasParent(e))
  {
    if |nodes| > 0 {
      var front, last := nodes[..|nodes| - 1], nodes[|nodes| - 1];
      assert nodes == front + [last];
      var keep := (e: Entry) => HasParent(e);
      WithParentInOrder(front);
      Schema.FilterAppend(front, [last], keep);
      Schema.FilterOne(last, keep);
      assert keep(last) <==> HasParent(last);
      assert WithParent(nodes) == WithParent(front) + (if HasParent(last) then [last] else []);
    }
  }

  /** When every entry has a parent, none is dropped. */
  lemma {:induction false} AllParentedKept(nodes: seq<Entry>)
    requires forall k :: 0 <= k < |nodes| ==> HasParent(nodes[k])
    ensures WithParent(nodes) == nodes
  {
    if |nodes| > 0 {
      var front := nodes[..|nodes| - 1];
      assert nodes == front + [nodes[|nodes| - 1]];
      assert forall k :: 0 <= k < |front| ==> front[k] == nodes[k];
      AllParentedKept(front);
    }
  }

  lemma {:induction false} ChildEntriesIgnoreUnparented(p: int, nodes: seq<Entry>)
    ensures ChildEntries(p, WithParent(nodes)) == ChildEntries(p, nodes)
  {
    if |nodes| > 0 {
      var front := nodes[..|nodes| - 1];
      var last := nodes[|nodes| - 1];
      ChildEntriesIgnoreUnparented(p, front);
      if HasParent(last) {
        var w := WithParent(front) + [last];
        assert w[..|w| - 1] == WithParent(front);
      }
    }
  }

  /** Two forests described by the same child lists are the same forest. */
  lemma {:induction false} DescribesUnique(x: seq<TreeNode>, y: seq<TreeNode>, p: int,
                                           a: seq<Entry>, b: seq<Entry>, fa: nat, fb: nat)
    requires forall q :: ChildEntries(q, a) == ChildEntries(q, b)
    requires Describes(x, p, a, fa) && Describes(y, p, b, fb)
    ensures x == y
    decreases x
  {
    forall k | 0 <= k < |x|
      ensures x[k] == y[k]
    {
      DescribesUnique(x[k].children, y[k].children, x[k].id, a, b, fa - 1, fb - 1);
    }
  }

  /** `build_tree` depends on its input only through the child lists. */
  lemma BuildTreeFollowsChildren(a: seq<Entry>, b: seq<Entry>)
    requires Terminates(a) && Terminates(b)
    requires forall q :: ChildEntries(q, a) == ChildEntries(q, b)
    ensures BuildTree(a) == BuildTree(b)
  {
    var ra, rb := BuildTree(a), BuildTree(b);
    assert ra.None? <==> |ChildEntries(0, a)| == 0;
    assert rb.None? <==> |ChildEntries(0, b)| == 0;
    if ra.Some? {
      DescribesUnique(ra.value, rb.value, 0, a, b, |a| + 1, |b| + 1);
    }
  }

  /**
   Entries without a parent never reach the output: removing them changes
   nothing (when both inputs terminate).
   */
  lemma UnparentedIgnored(nodes: seq<Entry>)
    requires Terminates(nodes) && Terminates(WithParent(nodes))
    ensures BuildTree(nodes) == BuildTree(WithParent(nodes))
  {
    forall q
      ensures ChildEntries(q, nodes) == ChildEntries(q, WithParent(nodes))
    {
      ChildEntriesIgnoreUnparented(q, nodes);
    }
    BuildTreeFollowsChildren(nodes, WithParent(nodes));
  }

  lemma {:induction false} SelfLoopNeverEnds(nodes: seq<Entry>, i: nat, fuel: nat)
    requires i < |nodes| && nodes[i].parent == Some(nodes[i].id)
    ensures !Descends(nodes[i].id, nodes, fuel)
    decreases fuel
  {
    if fuel > 0 {
      SelfLoopNeverEnds(nodes, i, fuel - 1);
    }
  }

  /** An entry that is its own parent under 0 makes the descent loop: the precondition rules it out. */
  lemma RootSelfLoopExcluded(nodes: seq<Entry>, i: nat)
    requires i < |nodes| && nodes[i].id == 0 && nodes[i].parent == Some(0)
    ensures !Terminates(nodes)
  {
    SelfLoopNeverEnds(nodes, i, |nodes| + 1);
  }
}
